=== FILE: README.md ===
# librtpi priority-inheritance mutex and condition variable, modelled in Dafny

This project models the bookkeeping in librtpi's PI mutex (`pi_mutex_*`) and
PI condition variable (`pi_cond_*`) as a functional state machine, and proves
properties of it.

- Each library call is one pure step. It maps a state and the caller's thread
  id to a return code and a new state.
- Each kernel futex call is an oracle reply passed in as a parameter:
  `futex_lock_pi`, `futex_unlock_pi`, `futex_wait_requeue_pi` and
  `futex_cmp_requeue_pi`. A reply is either a success with what the kernel
  left behind, or a failure with an `errno`.
- The retry loops of wait and signal consume a finite sequence of rounds.
  Each round holds the kernel replies for one pass. It also holds the steps
  other threads take on the counters while this thread does not hold the
  private mutex (`OtherWait`, `OtherSignal`).
  - If the rounds run out while the call is still looping, its status is
    `Pending`.

Files and modules:

- `base.dfy` (`Base`): the nullable pointer (`Option`), the errno values, and
  `__u32` counters with their wrap-around (`Bump`).
- `kernel.dfy` (`Kernel`): the four oracle reply types.
- `thread_id.dfy` (`ThreadId`): `gettid` / `cleartid` and the per-thread id
  cache, where 0 means "not looked up".
- `pi_mutex.dfy` (`PiMutex`): the futex word. Its low 30 bits
  (`FUTEX_TID_MASK`) name the owner and its high bits belong to the kernel.
  Holds init, destroy, trylock, lock and unlock.
- `lock_save.dfy` (`LockSave`): the `pi_mutex_lock_save` /
  `pi_mutex_unlock_restore` helpers.
- `pi_cond.dfy` (`PiCond`): the condition-variable state, init, destroy and
  the static initialisers. Also the two counter steps: taking a ticket, and
  publishing (`cond++; wake_id = cond`). Also the epoch invariant
  `wake_id <= cond`, and the log of private-mutex calls with its discipline
  (`Alternating`, `Released`).
- `cond_wait.dfy` (`CondWait`): `pi_cond_timedwait` and `pi_cond_wait`.
- `cond_signal.dfy` (`CondSignal`): `pi_cond_signal_common`, `pi_cond_signal`
  and `pi_cond_broadcast`.

Some return values are ignored by the C code, and the model ignores them too:

- `pi_cond_init` ignores the result of its `pi_mutex_init`.
- `pi_cond_signal_common` ignores its private-mutex lock and unlock results.
- Inside the wait loop, and on its way out, `pi_cond_timedwait` ignores the
  private-mutex and external-mutex lock and unlock results.

Constants:

- Errno values are Linux's: EPERM 1, EAGAIN 11, EBUSY 16, EINVAL 22,
  EDEADLOCK 35, ETIMEDOUT 110.
- `INT_MAX` is 2147483647.
- `rtpi.h` is not part of this model. `RTPI_MUTEX_PSHARED` and
  `RTPI_COND_PSHARED` are both taken to be `0x1`.

Where the header and the code disagree: in `src/rtpi_internal.h`,
`union pi_cond` has a `mutex` back-pointer and no private mutex. The code in
`src/pi_cond.c` uses an embedded `priv_mut` and never reads a back-pointer.
The model follows the code: `Cond` holds `priv`, and the back-pointer is not
modelled.

## Model

| member | source | states |
|---|---|---|
| ThreadId.GetTid | src/pi_mutex.c:23-30 | a non-zero cache is returned without asking the kernel; an empty cache is filled with the kernel's id; the cache afterwards holds the id returned |
| ThreadId.ClearTid | src/pi_mutex.c:13-16 | the fork handler leaves the cache empty (0), whatever it held |
| ThreadId.CachedLookupIsStable | src/pi_mutex.c:23-30 | once an id is cached, later lookups return it whatever the kernel would now say |
| ThreadId.ClearedCacheRequeries | src/pi_mutex.c:13-30 | after the fork handler clears the cache, the next lookup returns the child's own id, not the parent's |
| PiMutex.ForkedChildDoesNotOwn | src/pi_mutex.c:13-98 | in a child forked while the parent held the mutex, a trylock with the id left in the parent's cache would report EDEADLOCK as if the child owned it; after the fork handler clears the cache, the child's trylock gets EBUSY |
| PiMutex.StaticInit | src/rtpi_internal.h:20 | `PI_MUTEX_INIT(f)` is an unlocked word with flags `f` |
| PiMutex.Init | src/pi_mutex.c:42-64 | a failing `pthread_once` result is returned and the mutex is left alone; unknown flag bits give EINVAL with the mutex already zeroed; otherwise 0, word 0, and flags PSHARED exactly when PSHARED was requested, else 0 |
| PiMutex.Destroy | src/pi_mutex.c:66-70 | returns 0 and leaves the all-zero state |
| PiMutex.TryLock | src/pi_mutex.c:85-99 | the owner gets EDEADLOCK with the word unchanged; anyone else succeeds exactly when the word is 0 and then owns it; otherwise EBUSY with the word unchanged |
| PiMutex.LockMutex | src/pi_mutex.c:72-83 | a trylock result of 0 or EDEADLOCK is returned verbatim; only on EBUSY is the kernel asked, giving 0 with the caller as owner or the kernel's errno with the mutex unchanged |
| PiMutex.GrantedLockKeepsWaiterBits | src/pi_mutex.c:79-82 | when trylock reports EBUSY and the kernel grants the lock, the word names the caller in its owner bits and carries the waiter bits the kernel set |
| PiMutex.Lock | src/pi_mutex.c:76-77 | a null handle gives EINVAL; otherwise the lock step above |
| PiMutex.UnlockMutex | src/pi_mutex.c:101-118 | a non-owner gets EPERM with the word unchanged; a word equal to the caller's id is cleared with result 0; with waiter bits set the kernel's reply decides (its word and 0, or its errno with the word unchanged) |
| PiMutex.Unlock | src/pi_mutex.c:106-107 | a null handle gives EINVAL; otherwise the unlock step above |
| PiMutex.HonouredUnlockReleases | src/pi_mutex.c:109-117 | when the kernel carries out the unlock it is asked for, the caller does not own the mutex afterwards: the owner gets 0, anyone else EPERM |
| PiMutex.LockGrantedOwns | src/pi_mutex.c:79-82 | when the kernel grants the lock, the caller owns the mutex afterwards on every path |
| PiMutex.RelockReportsDeadlock | src/pi_mutex.c:79-94 | after a successful lock, a second trylock or lock by the same thread gives EDEADLOCK and changes nothing (non-recursive) |
| PiMutex.UnlockReleasesOwnership | src/pi_mutex.c:109-117 | a successful unlock was by the owner and leaves it no longer owning the mutex, when the kernel hands off to another thread |
| PiMutex.TryLockUnlockRoundTrip | src/pi_mutex.c:92-116 | on a free mutex, trylock then unlock both succeed on the fast path and restore the mutex exactly |
| PiMutex.OwnerExcludesOthers | src/pi_mutex.c:92-111 | while one thread owns the mutex, another thread's trylock gives EBUSY and its unlock gives EPERM, both without change |
| PiMutex.DestroyThenInit | src/pi_mutex.c:51-70 | destroy then a plain init gives back a fresh, unlocked mutex |
| PiMutex.TwoThreadScenario | src/pi_mutex.c:72-118 | A locks, A's trylock gives EDEADLOCK, B's gives EBUSY, A unlocks back to the initial state, then B's trylock succeeds |
| LockSave.LockSaveOp | src/rtpi_internal.h:22-36 | "already held" is true exactly when the caller owned the mutex, with result 0 and no change; a free mutex is taken with result 0; on EBUSY the kernel's reply gives 0 with ownership or its errno |
| LockSave.UnlockRestoreOp | src/rtpi_internal.h:38-44 | with "already held" it returns 0 and changes nothing; otherwise it is exactly an unlock |
| LockSave.LockSaveAgreesWithLock | src/rtpi_internal.h:22-36 | lock-save leaves the same mutex as `pi_mutex_lock`; it reports "already held" exactly when trylock gave EDEADLOCK, and otherwise returns what the lock returns |
| LockSave.SaveRestoreRoundTrip | src/rtpi_internal.h:22-44 | lock-save then unlock-restore leaves the caller's ownership as it was; a mutex it already held, or a free one, comes back unchanged |
| PiCond.StaticInit | src/rtpi_internal.h:59-63 | `PI_COND_INIT` has `cond == 0` and `wake_id == 0`, so the epoch invariant holds, and the private mutex is unlocked |
| PiCond.Init | src/pi_cond.c:28-47 | unknown flags give EINVAL with the state untouched; otherwise 0, zero counters, flags PSHARED exactly when requested, and the private mutex unlocked with the same pshared flag (or 0 when its `pthread_once` failed) |
| PiCond.Destroy | src/pi_cond.c:49-53 | returns 0 and leaves the all-zero state |
| PiCond.DestroyThenInit | src/pi_cond.c:28-53 | destroy then a successful init restores the initial invariants: zero epoch and marker, unlocked private mutex |
| PiCond.Ticket | src/pi_cond.c:73-74 | taking a ticket adds one to the epoch (wrapping at 2^32), leaves the marker alone, and keeps `wake_id <= cond` below the top of the range |
| PiCond.Publish | src/pi_cond.c:122-124 | publishing adds one to the epoch, sets `wake_id == cond`, and so always re-establishes the invariant |
| PiCond.TicketAtTopWraps | src/pi_cond.c:73 | at the top of the 32-bit range a ticket wraps the epoch to 0 and breaks `wake_id <= cond` |
| PiCond.InterleaveCountsSteps | src/pi_cond.c:73-74 | without wrap-around, each step of another thread adds exactly one to the epoch |
| PiCond.InterleaveAdvances | src/pi_cond.c:119-125 | other threads' ticket and publish steps keep `wake_id <= cond` and never lower the marker |
| PiCond.InterleavedSignalPublishes | src/pi_cond.c:119-125 | a signal among other threads' steps leaves the marker past the epoch at which the run started |
| CondWait.RunPass | src/pi_cond.c:75-106 | one pass waits on the freshly read epoch. It loops again exactly on EAGAIN with `wake_id < wait_id`. A kernel wake-up returns 0 and gives the caller the external mutex. EAGAIN with `wake_id >= wait_id` re-locks the external mutex and returns 0. Any other errno re-locks it and returns that errno. The result is never EAGAIN. The kernel wait is made with the private mutex as the pass's unlock left it, which the caller does not own when the kernel carried out that unlock; a pass that loops again leaves the private mutex exactly as its re-lock left it |
| CondWait.RunPassReleasesPrivate | src/pi_cond.c:77-104 | a pass that loops again holds the private mutex when the kernel grants its re-acquisition; a pass that returns has released it when the kernel carries out that release, whoever held it before |
| CondWait.WaitLoop | src/pi_cond.c:75-107 | the loop issues one kernel wait per pass, and records the state of the private mutex and of the caller's mutex at each wait, the first on the loop's entry epoch, each with the call's deadline; private-mutex calls alternate starting after the entry lock, and a return has made an odd number of them, so every lock is matched; EAGAIN is never returned |
| CondWait.WaitLoopResult | src/pi_cond.c:83-106 | every pass before the last got EAGAIN from the kernel; the loop returns 0 exactly when the last wait was a proper wake-up or an EAGAIN with a signal already published for the ticket; any other result is the last wait's errno |
| CondWait.WaitLoopExitReleases | src/pi_cond.c:82-106 | a return from the loop leaves the caller not holding the private mutex, when the kernel carries out the last release |
| CondWait.WaitLoopPendingHolds | src/pi_cond.c:82-94 | a loop entered holding the private mutex still holds it while it keeps looping, when the kernel grants every re-acquisition |
| CondWait.WaitLoopReleasesPrivate | src/pi_cond.c:75-107 | both private-mutex facts above, for the whole loop |
| CondWait.WaitLoopBlocksReleased | src/pi_cond.c:76-79 | every kernel wait of the loop is made with the private mutex not held by the caller, whenever the kernel carried out that pass's unlock |
| CondWait.WaitLoopKeepsExt | src/pi_cond.c:75-94 | the loop does not touch the caller's mutex while it keeps retrying, so every kernel wait is made with that mutex as the loop was entered |
| CondWait.WaitLoopReadsFresh | src/pi_cond.c:75-76 | the i-th kernel wait is given the epoch as it stands after every other thread's step in earlier passes |
| CondWait.WaitLoopCounts | src/pi_cond.c:75-107 | inside the loop the waiter adds nothing to the epoch: it ends advanced by exactly the other threads' steps, with the invariant kept |
| CondWait.WaitLoopRelocks | src/pi_cond.c:83-106 | every return from the loop leaves the caller owning the external mutex, when the kernel grants the re-locks |
| CondWait.NoLostWakeup | src/pi_cond.c:83-94 | a signal by another thread after the ticket, during pass j, makes the waiter return no later than pass j, and returning at pass j it returns 0 |
| CondWait.AbortWait | src/pi_cond.c:67-71 | a failed release of the caller's mutex returns that error with the counters untouched and no kernel wait; the private mutex is unlocked again, and the caller does not hold it afterwards when the kernel carries out that unlock |
| CondWait.AfterTicket | src/pi_cond.c:73-108 | after the ticket: the first wait is on the ticket value, the result is 0 or the last wait's errno as above, the counters move only by other threads' steps, the private mutex is released on return, and each kernel wait is made without it, given the kernel carries out the releases; the i-th wait is on the ticket plus the other threads' steps in earlier passes; every wait is made with the caller's mutex as it stood after its release |
| CondWait.TimedWait | src/pi_cond.c:55-109 | a failing private lock is returned with nothing touched; a failing external unlock releases the private mutex and returns that error with the epoch not incremented; otherwise the ticket is the epoch after one increment, the first wait is on it, exactly one increment is the waiter's own, every wait but the last got EAGAIN, the result is 0 exactly for a proper wake-up or an EAGAIN with a signal already published for the ticket and is otherwise the last wait's errno (a timeout included), never EAGAIN; every lock of the private mutex is matched by an unlock, a caller that did not hold the private mutex does not hold it on return when the kernel carries out the releases, and the external mutex is re-held when the kernel grants re-locks; every kernel wait is made with the private mutex not held by the caller, whenever the kernel carried out that pass's unlock; once the caller's mutex was released, every kernel wait is made with the caller not owning it, given a kernel that hands it to another thread or to nobody |
| CondWait.TimedWaitSeesSignal | src/pi_cond.c:73-94 | whole-call no lost wake-up: once past the external unlock, a signal during pass j makes the call return by pass j, with 0 if it returns at pass j |
| CondWait.TimedWaitReadsFresh | src/pi_cond.c:73-79 | once past the external unlock, the i-th kernel wait of a call is on the ticket plus every step other threads took in the earlier passes |
| CondWait.TimedWaitReportsTimeout | src/pi_cond.c:95-100 | a deadline that passes during the first kernel wait is returned to the caller as ETIMEDOUT after that single wait |
| CondWait.Wait | src/pi_cond.c:111-114 | `pi_cond_wait` is a timed wait whose kernel waits all carry no deadline |
| CondSignal.PublishLocked | src/pi_cond.c:121-125 | publishing under the private mutex adds one to the epoch, leaves `wake_id == cond`, and makes one matched lock/unlock pair; the counters are updated while the caller holds the private mutex whenever the kernel grants the lock, and the unlock is applied to that held state; when the kernel carries out the unlock, the caller does not hold the private mutex afterwards, whether or not its lock succeeded |
| CondSignal.SignalLoop | src/pi_cond.c:127-145 | every requeue call carries the same count. Each retry follows an EAGAIN and targets the epoch just republished. A non-negative reply returns 0. Any other errno is returned verbatim. EAGAIN is never returned. Private-mutex calls come in matched pairs |
| CondSignal.SignalCommon | src/pi_cond.c:116-146 | the first published epoch is one past the epoch found; each requeue call targets the epoch published just before it, with count INT_MAX for broadcast and 0 otherwise; the result is 0 exactly when the last reply was non-negative, else that reply's errno, never EAGAIN; every lock of the private mutex is matched by an unlock, and the caller does not hold the private mutex afterwards when the kernel carries out each release; one held state is recorded per publish |
| CondSignal.SignalLoopHoldsPrivate | src/pi_cond.c:134-140 | every epoch the retry loop re-publishes is written while the caller holds the private mutex, whenever the kernel granted that round's lock |
| CondSignal.SignalLoopPublishes | src/pi_cond.c:134-140 | the i-th re-published epoch is the loop's entry epoch plus every step of other threads in rounds 0..i and one own increment per round, so each re-publish is one past the epoch other threads left |
| CondSignal.SignalLoopCounts | src/pi_cond.c:127-144 | the loop ends with the epoch advanced by the other threads' steps in the rounds it used and one increment per re-publish, the final round making none when the loop returns |
| CondSignal.SignalCommonHolds | src/pi_cond.c:121-140 | every epoch a signal publishes, the first and each re-publish, is written while the caller holds the private mutex, whenever the kernel granted that lock |
| CondSignal.SignalCommonCounts | src/pi_cond.c:119-144 | the i-th published epoch is one past the epoch found plus other threads' steps in the first i rounds; the call ends with the epoch advanced by exactly its own publishes and the other threads' steps in the rounds it used |
| CondSignal.SignalLoopReleasesPrivate | src/pi_cond.c:134-140 | a retry loop entered without the private mutex never leaves the caller holding it, when the kernel carries out every re-publish's release |
| CondSignal.SignalLoopIncreasing | src/pi_cond.c:134-140 | each re-publish is a strictly larger epoch than the one before |
| CondSignal.SignalLoopKeepsInv | src/pi_cond.c:127-144 | the retry loop keeps `wake_id <= cond` and leaves `wake_id` at or past the last published epoch |
| CondSignal.SignalAdvances | src/pi_cond.c:119-144 | a signal or broadcast publishes `cond + 1`, then strictly increasing epochs, and leaves `wake_id <= cond` |
| CondSignal.Signal | src/pi_cond.c:153-156 | `pi_cond_signal` asks the kernel to requeue 0 waiters on every call |
| CondSignal.Broadcast | src/pi_cond.c:148-151 | `pi_cond_broadcast` asks the kernel to requeue INT_MAX waiters on every call |

## Left out

- Real thread interleavings, mutual exclusion across threads, and
  priority-inheritance boosting. These belong to the kernel's scheduler and
  futex implementation. Each library call is one atomic step. Other threads
  appear only as counter steps between this thread's private-mutex calls.
- How the kernel sets waiter bits in the futex word. The oracle replies carry
  arbitrary high bits. Requeueing does not change the external mutex in the
  model; the signal's `mutex` argument is passed to the kernel only, so it is
  not a parameter of `Signal`.
- `pi_mutex_alloc`, `pi_mutex_free`, `pi_cond_alloc`, `pi_cond_free`: heap
  wrappers with no logic.
- Registering the fork handler through `pthread_once` / `pthread_atfork`.
  These are foreign calls. `pthread_once`'s return value is the `onceRet`
  parameter, and running the handler is `ThreadId.ClearTid`.
- The `syscall(SYS_gettid)` lookup and `errno` plumbing. The kernel's id and
  each errno are parameters.
- `timespec` deadlines. They are passed through to the kernel untouched, and
  a timeout is just one of the errnos a wait reply can carry.
- Union padding and cache-line sizing, and the unused `mutex` back-pointer of
  `union pi_cond`. These are layout, not behaviour.
- Unbounded retry loops. A loop that is still retrying when its oracle rounds
  run out ends as `Pending`, so the model says nothing about a call that
  never returns.
- PiCond.InterleaveCountsSteps: stated only while the 32-bit epoch does not
  wrap (`Room`). `PiCond.TicketAtTopWraps` shows what happens at the top of
  the range.
- PiCond.InterleaveAdvances: stated without wrap-around, for the same
  reason.
- PiCond.InterleavedSignalPublishes: stated without wrap-around, for the
  same reason.
- CondWait.WaitLoopReadsFresh: stated without wrap-around, for the same
  reason.
- CondWait.WaitLoopCounts: stated without wrap-around, for the same reason.
- CondWait.TimedWait: the claims about the counter and the invariant are
  stated without wrap-around. The claim that the external mutex is re-held
  assumes the kernel grants every re-lock, because the source ignores a
  failed re-lock.
- CondWait.WaitLoopRelocks: assumes the kernel grants every re-lock of the
  external mutex, because the source ignores a failed re-lock.
- CondWait.NoLostWakeup: assumes no wrap-around, and a kernel that reports
  EAGAIN whenever the condition word moved during the pass.
- CondWait.TimedWaitSeesSignal: the same assumptions as
  `CondWait.NoLostWakeup`.
- CondWait.TimedWaitReadsFresh: stated without wrap-around.
- CondWait.TimedWait: the claim that every kernel wait is made with the
  caller's mutex released assumes the kernel hands that mutex to another
  thread or to nobody (`HandsOffToOther`) when it is contended.
- CondSignal.SignalLoopPublishes: stated without wrap-around.
- CondSignal.SignalLoopCounts: stated without wrap-around.
- CondSignal.SignalCommonCounts: stated without wrap-around.
- CondSignal.SignalLoopHoldsPrivate: a round's publish is held only when the
  kernel grants its lock, because the source ignores the lock result.
- CondSignal.SignalCommonHolds: the same premise as
  `CondSignal.SignalLoopHoldsPrivate`.
- CondWait.WaitLoopBlocksReleased: a wait is made without the private mutex
  only when the kernel carries out that pass's unlock, because the source
  ignores the unlock result.
- CondWait.RunPass: the released state at the kernel wait assumes the kernel
  carries out the unlock, for the same reason.
- CondWait.AbortWait: the release assumes the kernel carries out the unlock,
  because the source ignores its result.
- CondSignal.SignalAdvances: stated without wrap-around.
- CondWait.TimedWait: the claim that a return leaves the caller without the
  private mutex, and that each kernel wait is made without it, assume the
  kernel carries out each release of it (`UnlockHonoured`), because the
  source ignores those unlock results.
- CondWait.AfterTicket: the same assumptions as `CondWait.TimedWait`.
- CondWait.RunPassReleasesPrivate: assumes the kernel grants the
  re-acquisition and carries out the release of the private mutex, because
  the source ignores both results.
- CondWait.WaitLoopExitReleases: assumes the kernel carries out the last
  release of the private mutex.
- CondWait.WaitLoopPendingHolds: assumes the kernel grants every
  re-acquisition of the private mutex.
- CondWait.WaitLoopReleasesPrivate: the assumptions of the two lemmas it
  combines.
- CondSignal.PublishLocked: the release of the private mutex assumes the
  kernel carries out the unlock, and the hold during the update assumes it
  grants the lock, because the source ignores both results.
- CondSignal.SignalLoopReleasesPrivate: assumes the same of every re-publish.
- CondSignal.SignalCommon: the release of the private mutex assumes the
  same of every publish.
- CondSignal.SignalLoopIncreasing: stated without wrap-around.
- CondSignal.SignalLoopKeepsInv: stated without wrap-around.
- PiMutex.HonouredUnlockReleases: stated for a kernel that carries out the
  unlock; a failed kernel unlock leaves the mutex owned.
- PiMutex.UnlockReleasesOwnership: assumes the kernel never hands the lock
  back to the thread that is unlocking (`HandsOffToOther`).
- LockSave.SaveRestoreRoundTrip: assumes the same kernel hand-off contract.
  Ownership is restored only when both calls return 0.

=== FILE: base.dfy ===
/** Shared vocabulary of the model: the optional value used for C pointers that
    may be null, the errno values the library returns, and the unsigned 32-bit
    counters of the condition variable with their wrap-around. */
module Base {

  /** A C pointer that may be null: `None` is the null handle. */
  datatype Option<+T> = None | Some(value: T)

  /** Error numbers as Linux defines them. `EDEADLOCK` is Linux's alias of `EDEADLK`. */
  const EPERM: int := 1
  const EAGAIN: int := 11
  const EBUSY: int := 16
  const EINVAL: int := 22
  const EDEADLOCK: int := 35
  const ETIMEDOUT: int := 110

  /** `INT_MAX` of a 32-bit `int`. */
  const INT_MAX: int := 0x7fff_ffff

  /** An error number as the kernel reports it through `errno`: always positive. */
  type Errno = e: int | e > 0 witness 1

  /** The largest value of a `__u32`. */
  const U32_MAX: int := 0xffff_ffff

  type u32 = x: int | 0 <= x <= 0xffff_ffff

  /** `x++` on a `__u32`: wraps from `U32_MAX` back to 0. */
  function Bump(x: u32): (r: u32)
    ensures x < U32_MAX ==> r == x + 1
    ensures x == U32_MAX ==> r == 0
  {
    (x + 1) % (U32_MAX + 1)
  }
}

=== FILE: cond_signal.dfy ===
/** `pi_cond_signal_common`, `pi_cond_signal` and `pi_cond_broadcast`: publish
    a new epoch under the private mutex, then ask the kernel to requeue
    waiters; when another thread moved the epoch in between (EAGAIN), publish
    again and retry.

    Each retry is driven by one `SignalRound`: the steps other threads take on
    the counters before the kernel call, the kernel's reply, and the replies
    for the private-mutex calls of the re-publish that follows an EAGAIN. */
module CondSignal {
  import opened Base
  import opened Kernel
  import opened ThreadId
  import opened PiMutex
  import opened PiCond

  datatype SignalRound = SignalRound(
    others: seq<Event>,       // other threads' steps before the kernel call
    reply: RequeueReply,      // futex_cmp_requeue_pi
    privLock: LockReply,      // re-publish after EAGAIN: taking the private mutex
    privUnlock: UnlockReply)  // re-publish after EAGAIN: releasing it

  datatype SignalOracle = SignalOracle(
    privLock: LockReply,      // first publish: taking the private mutex
    privUnlock: UnlockReply,  // first publish: releasing it
    rounds: seq<SignalRound>)

  /** The arguments of one `futex_cmp_requeue_pi` call: the epoch it expects
      and how many waiters it asks to requeue. */
  datatype RequeueCall = RequeueCall(val: u32, count: int)

  /** The outcome of a signal: where it stands, the condition variable
      afterwards, the calls made on the private mutex, the epochs published in
      order, the private mutex as it stood while each of them was published,
      and the kernel requeue calls issued. */
  datatype SignalRun = SignalRun(status: Status, cond: Cond, log: seq<PrivOp>,
                                 published: seq<u32>, held: seq<Mutex>,
                                 calls: seq<RequeueCall>)

  /** The result of publishing under the private mutex: the condition variable
      afterwards, the calls made on the private mutex, and the private mutex as
      it stood while the counters were updated. */
  datatype Published = Published(cond: Cond, log: seq<PrivOp>, held: Mutex)

  /** Lock the private mutex, bump the epoch, publish it as `wake_id`, unlock.
      Neither private-mutex call's return value is looked at. */
  function PublishLocked(c: Cond, tid: Tid, kl: LockReply, ku: UnlockReply): (r: Published)
    ensures r.cond.cond == Bump(c.cond) && r.cond.wakeId == r.cond.cond
    ensures Inv(r.cond)
    ensures c.cond < U32_MAX ==> r.cond.cond > c.cond
    ensures r.cond.flags == c.flags
    ensures Released(r.log) && |r.log| == 2
    // Whether or not the lock succeeded, an unlock the kernel carries out
    // leaves the caller not holding the private mutex.
    ensures UnlockHonoured(ku, tid) ==> !OwnedBy(r.cond.priv, tid)
    // The counters are updated holding the private mutex whenever the kernel
    // grants the lock, and the unlock releases that same hold.
    ensures kl.Acquired? ==> OwnedBy(r.held, tid)
    ensures r.cond.priv == UnlockMutex(r.held, tid, ku).state
  {
    var l := LockMutex(c.priv, tid, kl);
    var p := Publish(c.(priv := l.state));
    var u := UnlockMutex(p.priv, tid, ku);
    HonouredUnlockReleases(p.priv, tid, ku);
    Published(p.(priv := u.state), [PrivLock, PrivUnlock], l.state)
  }

  /** The published steps and other threads' steps of a run of rounds. */
  function Traffic(rounds: seq<SignalRound>): nat
    decreases |rounds|
  {
    if |rounds| == 0 then 0 else |rounds[0].others| + 1 + Traffic(rounds[1..])
  }

  /** A publish under the private mutex followed by the rest of the run: its
      epoch and its private-mutex calls come first. */
  function AfterPublish(p: Published, calls: seq<RequeueCall>, rest: SignalRun): (r: SignalRun)
    requires Released(p.log)
    requires |rest.log| == 0 || Released(rest.log)
    ensures r.status == rest.status && r.cond == rest.cond && r.calls == calls
    ensures r.published == [p.cond.cond] + rest.published && r.held == [p.held] + rest.held
    ensures Released(r.log) && |r.log| == |p.log| + |rest.log|
  {
    ReleasedConcat(p.log, rest.log);
    SignalRun(rest.status, rest.cond, p.log + rest.log, [p.cond.cond] + rest.published,
              [p.held] + rest.held, calls)
  }

  /** The retry loop, entered just after publishing `id`. */
  function SignalLoop(c: Cond, id: u32, count: int, tid: Tid, rounds: seq<SignalRound>): (r: SignalRun)
    ensures |r.calls| <= |rounds|
    ensures r.status.Pending? ==> |r.calls| == |rounds|
    ensures r.status.Returned? ==> |r.calls| > 0
    ensures |r.calls| > 0 ==> r.calls[0] == RequeueCall(id, count)
    ensures forall i :: 0 <= i < |r.calls| ==> r.calls[i].count == count
    ensures |r.published| == |r.calls| - (if r.status.Returned? then 1 else 0)
    ensures |r.held| == |r.published|
    ensures forall i :: 0 < i < |r.calls| ==> r.calls[i].val == r.published[i - 1]
    ensures |r.log| == 2 * |r.published| && (|r.log| == 0 || Released(r.log))
    ensures r.status.Returned? ==> r.status.code != EAGAIN
    ensures r.status == Returned(0) <==> r.status.Returned? && rounds[|r.calls| - 1].reply.Moved?
    ensures r.status.Returned? && r.status.code != 0 ==>
              rounds[|r.calls| - 1].reply.RequeueFailed? && rounds[|r.calls| - 1].reply.errno == r.status.code
    ensures forall i :: 0 <= i < |r.calls| - 1 ==> rounds[i].reply == RequeueFailed(EAGAIN)
    ensures r.cond.flags == c.flags
    decreases |rounds|
  {
    if |rounds| == 0 then SignalRun(Pending, c, [], [], [], [])
    else
      var rd := rounds[0];
      var c1 := Interleave(c, rd.others);
      var call := RequeueCall(id, count);
      match rd.reply
      case Moved(_) => SignalRun(Returned(0), c1, [], [], [], [call])
      case RequeueFailed(e) =>
        if e == EAGAIN then
          var p := PublishLocked(c1, tid, rd.privLock, rd.privUnlock);
          var rest := SignalLoop(p.cond, p.cond.cond, count, tid, rounds[1..]);
          AfterPublish(p, [call] + rest.calls, rest)
        else SignalRun(Returned(e), c1, [], [], [], [call])
  }

  /** A kernel that carries out the release of the private mutex in every
      re-publish. */
  predicate RepublishHonoured(rounds: seq<SignalRound>, tid: Tid)
  {
    forall i :: 0 <= i < |rounds| ==> UnlockHonoured(rounds[i].privUnlock, tid)
  }

  /** The retry loop, entered not holding the private mutex, never leaves the
      caller holding it, given a kernel that carries out each release. */
  lemma {:induction false} SignalLoopReleasesPrivate(c: Cond, id: u32, count: int, tid: Tid,
                                                     rounds: seq<SignalRound>)
    ensures !OwnedBy(c.priv, tid) && RepublishHonoured(rounds, tid) ==>
              !OwnedBy(SignalLoop(c, id, count, tid, rounds).cond.priv, tid)
    decreases |rounds|
  {
    if |rounds| > 0 && !OwnedBy(c.priv, tid) && RepublishHonoured(rounds, tid) {
      var rd := rounds[0];
      var c1 := Interleave(c, rd.others);
      if rd.reply == RequeueFailed(EAGAIN) {
        var p := PublishLocked(c1, tid, rd.privLock, rd.privUnlock);
        assert RepublishHonoured(rounds[1..], tid) by {
          forall i | 0 <= i < |rounds| - 1 ensures UnlockHonoured(rounds[1..][i].privUnlock, tid) {
            assert rounds[1..][i] == rounds[i + 1];
          }
        }
        SignalLoopReleasesPrivate(p.cond, p.cond.cond, count, tid, rounds[1..]);
      }
    }
  }

  /** Every epoch the retry loop publishes was published holding the private
      mutex, whenever the kernel granted that re-publish's lock. */
  lemma {:induction false} SignalLoopHoldsPrivate(c: Cond, id: u32, count: int, tid: Tid,
                                                  rounds: seq<SignalRound>)
    ensures forall i :: 0 <= i < |SignalLoop(c, id, count, tid, rounds).held| && rounds[i].privLock.Acquired? ==>
              OwnedBy(SignalLoop(c, id, count, tid, rounds).held[i], tid)
    decreases |rounds|
  {
    if |rounds| > 0 && rounds[0].reply == RequeueFailed(EAGAIN) {
      var rd := rounds[0];
      var c1 := Interleave(c, rd.others);
      var p := PublishLocked(c1, tid, rd.privLock, rd.privUnlock);
      var rest := SignalLoop(p.cond, p.cond.cond, count, tid, rounds[1..]);
      var held := SignalLoop(c, id, count, tid, rounds).held;
      assert held == [p.held] + rest.held;
      SignalLoopHoldsPrivate(p.cond, p.cond.cond, count, tid, rounds[1..]);
      forall i | 0 < i < |held| && rounds[i].privLock.Acquired? ensures OwnedBy(held[i], tid) {
        assert held[i] == rest.held[i - 1] && rounds[i] == rounds[1..][i - 1];
      }
    }
  }

  /** The slice identity the counting lemma steps through. */
  lemma TrafficOfPrefix(rounds: seq<SignalRound>, i: nat)
    requires 0 < i <= |rounds|
    ensures Traffic(rounds[..i]) == |rounds[0].others| + 1 + Traffic(rounds[1..][..i - 1])
  {
    assert rounds[..i][1..] == rounds[1..][..i - 1];
  }

  /** Counter accounting of the retry loop: each re-publish is one past the
      epoch other threads left behind, so the i-th published epoch is the
      entry epoch plus every step of the first i + 1 rounds. Stated without
      wrap-around. */
  lemma {:induction false} SignalLoopPublishes(c: Cond, id: u32, count: int, tid: Tid,
                                               rounds: seq<SignalRound>)
    requires Room(c, Traffic(rounds))
    ensures forall i :: 0 <= i < |SignalLoop(c, id, count, tid, rounds).published| ==>
              SignalLoop(c, id, count, tid, rounds).published[i] == c.cond + Traffic(rounds[..i + 1])
    decreases |rounds|
  {
    if |rounds| > 0 && rounds[0].reply == RequeueFailed(EAGAIN) {
      var rd := rounds[0];
      var c1 := Interleave(c, rd.others);
      InterleaveCountsSteps(c, rd.others);
      var p := PublishLocked(c1, tid, rd.privLock, rd.privUnlock);
      var rest := SignalLoop(p.cond, p.cond.cond, count, tid, rounds[1..]);
      var published := SignalLoop(c, id, count, tid, rounds).published;
      assert published == [p.cond.cond] + rest.published;
      assert p.cond.cond == c.cond + |rd.others| + 1 && Room(p.cond, Traffic(rounds[1..]));
      SignalLoopPublishes(p.cond, p.cond.cond, count, tid, rounds[1..]);
      PublishedAfterRound(c.cond, p.cond.cond, rest.published, rounds);
    }
  }

  /** The accounting of the rest of the loop, seen from before the round that
      re-published `first`. */
  lemma PublishedAfterRound(base: int, first: u32, rest: seq<u32>, rounds: seq<SignalRound>)
    requires |rest| < |rounds|
    requires first == base + |rounds[0].others| + 1
    requires forall j :: 0 <= j < |rest| ==> rest[j] == first + Traffic(rounds[1..][..j + 1])
    ensures forall i :: 0 <= i < 1 + |rest| ==> ([first] + rest)[i] == base + Traffic(rounds[..i + 1])
  {
    forall i | 0 <= i < 1 + |rest|
      ensures ([first] + rest)[i] == base + Traffic(rounds[..i + 1])
    {
      TrafficOfPrefix(rounds, i + 1);
      if i > 0 {
        assert ([first] + rest)[i] == rest[i - 1];
      }
    }
  }

  /** The retry loop ends with the epoch advanced by exactly the steps of the
      rounds it used, less the re-publish a final round does not make. Stated
      without wrap-around. */
  lemma {:induction false} SignalLoopCounts(c: Cond, id: u32, count: int, tid: Tid,
                                            rounds: seq<SignalRound>)
    requires Room(c, Traffic(rounds))
    ensures var r := SignalLoop(c, id, count, tid, rounds);
            r.cond.cond == c.cond + Traffic(rounds[..|r.calls|]) - (if r.status.Returned? then 1 else 0)
    decreases |rounds|
  {
    if |rounds| == 0 {
      assert rounds[..0] == [];
    } else {
      var rd := rounds[0];
      var c1 := Interleave(c, rd.others);
      assert Traffic(rounds) == |rd.others| + 1 + Traffic(rounds[1..]);
      InterleaveCountsSteps(c, rd.others);
      var r := SignalLoop(c, id, count, tid, rounds);
      if rd.reply == RequeueFailed(EAGAIN) {
        var p := PublishLocked(c1, tid, rd.privLock, rd.privUnlock);
        var rest := SignalLoop(p.cond, p.cond.cond, count, tid, rounds[1..]);
        assert r.cond == rest.cond && r.status == rest.status && |r.calls| == 1 + |rest.calls|;
        assert p.cond.cond == c.cond + |rd.others| + 1 && Room(p.cond, Traffic(rounds[1..]));
        SignalLoopCounts(p.cond, p.cond.cond, count, tid, rounds[1..]);
        CountAfterRound(c.cond, p.cond.cond, rest.cond.cond, |rest.calls|,
                        if rest.status.Returned? then 1 else 0, rounds);
        assert r.cond.cond == c.cond + Traffic(rounds[..|r.calls|]) - (if r.status.Returned? then 1 else 0);
      } else if rd.reply.Moved? {
        assert r.cond == c1 && |r.calls| == 1 && r.status.Returned?;
        TrafficOfPrefix(rounds, 1);
        assert r.cond.cond == c.cond + Traffic(rounds[..|r.calls|]) - 1;
      } else {
        assert r.cond == c1 && |r.calls| == 1 && r.status.Returned?;
        TrafficOfPrefix(rounds, 1);
        assert r.cond.cond == c.cond + Traffic(rounds[..|r.calls|]) - 1;
      }
    }
  }

  /** The accounting of the rest of the loop, seen from before the round that
      re-published `first`. */
  lemma CountAfterRound(base: int, first: int, last: int, n: nat, d: int, rounds: seq<SignalRound>)
    requires n < |rounds|
    requires first == base + |rounds[0].others| + 1
    requires last == first + Traffic(rounds[1..][..n]) - d
    ensures last == base + Traffic(rounds[..n + 1]) - d
  {
    TrafficOfPrefix(rounds, n + 1);
  }

  /** Two runs of matched lock-unlock pairs make one. */
  lemma ReleasedConcat(a: seq<PrivOp>, b: seq<PrivOp>)
    requires Released(a)
    requires |b| == 0 || Released(b)
    ensures Released(a + b)
  {
    var ab := a + b;
    forall i | 0 <= i < |ab|
      ensures ab[i] == (if i % 2 == 0 then PrivLock else PrivUnlock)
    {
      if i < |a| {
        assert ab[i] == a[i];
      } else {
        assert ab[i] == b[i - |a|];
        EvenShiftKeepsParity(i, |a|);
      }
    }
  }

  /** `pi_cond_signal_common`: `broadcast` asks the kernel to requeue every
      waiter (`INT_MAX`), a plain signal asks for none beyond the one woken. */
  function SignalCommon(c: Cond, broadcast: bool, tid: Tid, o: SignalOracle): (r: SignalRun)
    ensures |r.published| > 0 && r.published[0] == Bump(c.cond)
    ensures |r.published| == |r.calls| + (if r.status.Pending? then 1 else 0)
    ensures |r.calls| <= |o.rounds| && (r.status.Returned? ==> |r.calls| > 0)
    ensures forall i :: 0 <= i < |r.calls| ==> r.calls[i].val == r.published[i]
    ensures forall i :: 0 <= i < |r.calls| ==> r.calls[i].count == (if broadcast then INT_MAX else 0)
    ensures Released(r.log) && |r.log| == 2 * |r.published|
    ensures r.status.Returned? ==> r.status.code != EAGAIN
    ensures r.status == Returned(0) <==> r.status.Returned? && o.rounds[|r.calls| - 1].reply.Moved?
    ensures r.status.Returned? && r.status.code != 0 ==>
              o.rounds[|r.calls| - 1].reply.RequeueFailed? && o.rounds[|r.calls| - 1].reply.errno == r.status.code
    ensures r.cond.flags == c.flags
    // The caller does not hold the private mutex on the way out, given a
    // kernel that carries out each release.
    ensures UnlockHonoured(o.privUnlock, tid) && RepublishHonoured(o.rounds, tid) ==>
              !OwnedBy(r.cond.priv, tid)
    ensures |r.held| == |r.published|
  {
    var p := PublishLocked(c, tid, o.privLock, o.privUnlock);
    var count := if broadcast then INT_MAX else 0;
    var loop := SignalLoop(p.cond, p.cond.cond, count, tid, o.rounds);
    SignalLoopReleasesPrivate(p.cond, p.cond.cond, count, tid, o.rounds);
    ReleasedConcat(p.log, loop.log);
    SignalRun(loop.status, loop.cond, p.log + loop.log, [p.cond.cond] + loop.published,
              [p.held] + loop.held, loop.calls)
  }

  /** The loop's accounting, seen from before the first publish. */
  lemma FirstPublishCounts(c: Cond, first: u32, loop: SignalRun, rounds: seq<SignalRound>)
    requires first == c.cond + 1 && |loop.published| <= |rounds|
    requires forall i :: 0 <= i < |loop.published| ==> loop.published[i] == first + Traffic(rounds[..i + 1])
    ensures forall i :: 0 <= i < 1 + |loop.published| ==>
              ([first] + loop.published)[i] == c.cond + 1 + Traffic(rounds[..i])
  {
    assert rounds[..0] == [];
  }

  /** The loop's holds of the private mutex, seen from before the first
      publish. */
  lemma FirstPublishHolds(first: Mutex, loop: SignalRun, rounds: seq<SignalRound>, tid: Tid)
    requires |loop.held| <= |rounds|
    requires forall i :: 0 <= i < |loop.held| && rounds[i].privLock.Acquired? ==> OwnedBy(loop.held[i], tid)
    ensures forall i :: 0 < i < 1 + |loop.held| && rounds[i - 1].privLock.Acquired? ==>
              OwnedBy(([first] + loop.held)[i], tid)
  {
  }

  /** Every epoch a signal publishes is published holding the private mutex,
      whenever the kernel grants that publish's lock. */
  lemma SignalCommonHolds(c: Cond, broadcast: bool, tid: Tid, o: SignalOracle)
    ensures var r := SignalCommon(c, broadcast, tid, o);
            && (o.privLock.Acquired? ==> OwnedBy(r.held[0], tid))
            && (forall i :: 0 < i < |r.held| && o.rounds[i - 1].privLock.Acquired? ==> OwnedBy(r.held[i], tid))
  {
    var p := PublishLocked(c, tid, o.privLock, o.privUnlock);
    var count := if broadcast then INT_MAX else 0;
    var loop := SignalLoop(p.cond, p.cond.cond, count, tid, o.rounds);
    SignalLoopHoldsPrivate(p.cond, p.cond.cond, count, tid, o.rounds);
    FirstPublishHolds(p.held, loop, o.rounds, tid);
  }

  /** Counter accounting of a signal: each publish is one past the epoch other
      threads left behind, and the call ends with the epoch advanced by its own
      publishes and every step other threads took meanwhile. Stated without
      wrap-around. */
  lemma SignalCommonCounts(c: Cond, broadcast: bool, tid: Tid, o: SignalOracle)
    requires Room(c, 1 + Traffic(o.rounds))
    ensures var r := SignalCommon(c, broadcast, tid, o);
            && (forall i :: 0 <= i < |r.published| ==> r.published[i] == c.cond + 1 + Traffic(o.rounds[..i]))
            && r.cond.cond == c.cond + 1 + Traffic(o.rounds[..|r.calls|]) - (if r.status.Returned? then 1 else 0)
  {
    var p := PublishLocked(c, tid, o.privLock, o.privUnlock);
    var count := if broadcast then INT_MAX else 0;
    var loop := SignalLoop(p.cond, p.cond.cond, count, tid, o.rounds);
    SignalLoopPublishes(p.cond, p.cond.cond, count, tid, o.rounds);
    SignalLoopCounts(p.cond, p.cond.cond, count, tid, o.rounds);
    FirstPublishCounts(c, p.cond.cond, loop, o.rounds);
  }

  /** `pi_cond_signal`. */
  function Signal(c: Cond, tid: Tid, o: SignalOracle): (r: SignalRun)
    ensures forall i :: 0 <= i < |r.calls| ==> r.calls[i].count == 0
    ensures r == SignalCommon(c, false, tid, o)
  {
    SignalCommon(c, false, tid, o)
  }

  /** `pi_cond_broadcast`. */
  function Broadcast(c: Cond, tid: Tid, o: SignalOracle): (r: SignalRun)
    ensures forall i :: 0 <= i < |r.calls| ==> r.calls[i].count == INT_MAX
    ensures r == SignalCommon(c, true, tid, o)
  {
    SignalCommon(c, true, tid, o)
  }

  /** Each epoch in the sequence is larger than the one before. */
  predicate Increasing(s: seq<u32>)
  {
    forall i :: 0 < i < |s| ==> s[i - 1] < s[i]
  }

  lemma IncreasingCons(x: u32, s: seq<u32>)
    requires Increasing(s)
    requires |s| > 0 ==> x < s[0]
    ensures Increasing([x] + s)
  {
  }

  /** The retry loop, entered right after publishing `id`, publishes strictly
      increasing epochs, each past the one before it. Stated without
      wrap-around. */
  lemma {:induction false} SignalLoopIncreasing(c: Cond, id: u32, count: int, tid: Tid,
                                                rounds: seq<SignalRound>)
    requires c.cond == id && c.wakeId == id
    requires Room(c, Traffic(rounds))
    ensures Increasing([id] + SignalLoop(c, id, count, tid, rounds).published)
    decreases |rounds|
  {
    if |rounds| > 0 && rounds[0].reply == RequeueFailed(EAGAIN) {
      var rd := rounds[0];
      var c1 := Interleave(c, rd.others);
      InterleaveAdvances(c, rd.others);
      var p := PublishLocked(c1, tid, rd.privLock, rd.privUnlock);
      var rest := SignalLoop(p.cond, p.cond.cond, count, tid, rounds[1..]);
      SignalLoopIncreasing(p.cond, p.cond.cond, count, tid, rounds[1..]);
      assert SignalLoop(c, id, count, tid, rounds).published == [p.cond.cond] + rest.published;
      IncreasingCons(id, [p.cond.cond] + rest.published);
    }
  }

  /** The retry loop, entered right after publishing `id`, keeps the epoch
      invariant and leaves `wake_id` at or past the last epoch it published.
      Stated without wrap-around. */
  lemma {:induction false} SignalLoopKeepsInv(c: Cond, id: u32, count: int, tid: Tid,
                                              rounds: seq<SignalRound>)
    requires c.cond == id && c.wakeId == id
    requires Room(c, Traffic(rounds))
    ensures var r := SignalLoop(c, id, count, tid, rounds);
            Inv(r.cond) && r.cond.wakeId >= ([id] + r.published)[|r.published|]
    decreases |rounds|
  {
    var r := SignalLoop(c, id, count, tid, rounds);
    if |rounds| > 0 {
      var rd := rounds[0];
      var c1 := Interleave(c, rd.others);
      InterleaveAdvances(c, rd.others);
      if rd.reply == RequeueFailed(EAGAIN) {
        var p := PublishLocked(c1, tid, rd.privLock, rd.privUnlock);
        var rest := SignalLoop(p.cond, p.cond.cond, count, tid, rounds[1..]);
        SignalLoopKeepsInv(p.cond, p.cond.cond, count, tid, rounds[1..]);
        assert r.published == [p.cond.cond] + rest.published;
        assert ([id] + r.published)[|r.published|] == ([p.cond.cond] + rest.published)[|rest.published|];
      }
    }
  }

  /** A signal or broadcast publishes an epoch past the one it found, every
      retry publishes a larger one, and the epoch invariant holds afterwards.
      Stated without wrap-around. */
  lemma SignalAdvances(c: Cond, broadcast: bool, tid: Tid, o: SignalOracle)
    requires Room(c, 1 + Traffic(o.rounds))
    ensures var r := SignalCommon(c, broadcast, tid, o);
            && r.published[0] == c.cond + 1
            && Increasing(r.published)
            && Inv(r.cond)
            && r.cond.wakeId >= r.published[|r.published| - 1]
  {
    var p := PublishLocked(c, tid, o.privLock, o.privUnlock);
    var count := if broadcast then INT_MAX else 0;
    SignalLoopIncreasing(p.cond, p.cond.cond, count, tid, o.rounds);
    SignalLoopKeepsInv(p.cond, p.cond.cond, count, tid, o.rounds);
  }
}

=== FILE: cond_wait.dfy ===
/** `pi_cond_timedwait` and `pi_cond_wait`: take a ticket under the private
    mutex, release the caller's mutex, then loop on the kernel's
    wait-and-requeue call, retrying on EAGAIN until the kernel wakes the caller,
    an error aborts the wait, or a signal already published covers the ticket.

    Each loop pass is driven by one `WaitRound`: the kernel replies for the
    calls the pass makes, and the steps other threads take on the counters
    while the calling thread does not hold the private mutex. */
module CondWait {
  import opened Base
  import opened Kernel
  import opened ThreadId
  import opened PiMutex
  import opened PiCond

  /** The replies one pass of the wait loop consumes. A reply is only read if
      the call it answers reaches the kernel's slow path. */
  datatype WaitRound = WaitRound(
    privUnlock: UnlockReply,  // releasing the private mutex before blocking
    others: seq<Event>,       // other threads' steps while it is released
    wait: WaitReply,          // futex_wait_requeue_pi
    privLock: LockReply,      // re-taking the private mutex
    exitUnlock: UnlockReply,  // releasing the private mutex on the way out
    extLock: LockReply)       // re-taking the caller's mutex after EAGAIN or an error

  /** The replies the calls before the loop consume, then one round per pass. */
  datatype WaitOracle = WaitOracle(
    privLock: LockReply,      // taking the private mutex
    extUnlock: UnlockReply,   // releasing the caller's mutex
    abortUnlock: UnlockReply, // releasing the private mutex when that fails
    rounds: seq<WaitRound>)

  /** The arguments of one `futex_wait_requeue_pi` call. */
  datatype WaitCall = WaitCall(val: u32, deadline: Option<Deadline>)

  /** The outcome of a wait: where it stands, the condition variable and the
      caller's mutex afterwards, the calls made on the private mutex, the
      kernel wait calls issued, the private mutex and the caller's mutex as
      they stood while each of them blocked, and the ticket taken, if any. */
  datatype WaitRun = WaitRun(status: Status, cond: Cond, ext: Option<Mutex>,
                             log: seq<PrivOp>, calls: seq<WaitCall>, blocked: seq<Mutex>,
                             waitExt: seq<Mutex>, ticket: Option<u32>)

  /** The outcome of one pass: `Pending` means "loop again". `blocked` is the
      private mutex as it stood while the kernel wait blocked. */
  datatype Pass = Pass(exit: Status, cond: Cond, ext: Mutex, log: seq<PrivOp>, call: WaitCall,
                       blocked: Mutex)

  /** How many steps other threads take during the given rounds. */
  function Interference(rounds: seq<WaitRound>): nat
    decreases |rounds|
  {
    if |rounds| == 0 then 0 else |rounds[0].others| + Interference(rounds[1..])
  }

  /** A kernel that re-acquires the caller's mutex whenever asked to. */
  predicate RelocksGranted(rounds: seq<WaitRound>)
  {
    forall i :: 0 <= i < |rounds| ==> rounds[i].extLock.Acquired?
  }

  /** A kernel that reports EAGAIN whenever the condition word moved away from
      the value the waiter passed in. Under `Room` the word moved exactly when
      some other thread took a step during the pass. */
  predicate ReportsChange(rounds: seq<WaitRound>)
  {
    forall i :: 0 <= i < |rounds| && |rounds[i].others| > 0 ==> rounds[i].wait == WaitFailed(EAGAIN)
  }

  /** A kernel that grants every re-acquisition of the private mutex inside
      the loop. */
  predicate PrivRelocked(rounds: seq<WaitRound>)
  {
    forall i :: 0 <= i < |rounds| ==> rounds[i].privLock.Acquired?
  }

  /** A kernel that carries out every release of the private mutex on the way
      out of the loop. */
  predicate ExitsHonoured(rounds: seq<WaitRound>, tid: Tid)
  {
    forall i :: 0 <= i < |rounds| ==> UnlockHonoured(rounds[i].exitUnlock, tid)
  }

  /** One pass of the `do { ... } while (1)` loop, entered holding the private
      mutex: read the word, release the private mutex, let other threads run,
      call the kernel, re-take the private mutex, and decide. */
  function RunPass(c: Cond, ext: Mutex, tid: Tid, ticket: u32, deadline: Option<Deadline>,
                   rd: WaitRound): (r: Pass)
    ensures r.call == WaitCall(c.cond, deadline)
    ensures r.cond.cond == Interleave(c, rd.others).cond
    ensures r.cond.wakeId == Interleave(c, rd.others).wakeId
    ensures r.cond.flags == c.flags
    ensures r.exit.Pending? <==> rd.wait == WaitFailed(EAGAIN) && r.cond.wakeId < ticket
    ensures r.exit.Pending? ==> r.log == [PrivUnlock, PrivLock] && r.ext == ext
    ensures r.exit.Returned? ==> r.log == [PrivUnlock, PrivLock, PrivUnlock]
    ensures r.exit.Returned? ==> r.exit.code != EAGAIN
    ensures rd.wait.Requeued? ==> r.exit == Returned(0) && OwnedBy(r.ext, tid)
    ensures rd.wait == WaitFailed(EAGAIN) && r.cond.wakeId >= ticket ==>
              r.exit == Returned(0) && r.ext == LockMutex(ext, tid, rd.extLock).state
    ensures rd.wait.WaitFailed? && rd.wait.errno != EAGAIN ==>
              r.exit == Returned(rd.wait.errno) && r.ext == LockMutex(ext, tid, rd.extLock).state
    // The kernel wait blocks with the private mutex released, whenever the
    // kernel carries out that release, and the pass re-takes it from there.
    ensures UnlockHonoured(rd.privUnlock, tid) ==> !OwnedBy(r.blocked, tid)
    ensures r.exit.Pending? ==> r.cond.priv == LockMutex(r.blocked, tid, rd.privLock).state
  {
    var futexId := c.cond;
    var call := WaitCall(futexId, deadline);
    var u := UnlockMutex(c.priv, tid, rd.privUnlock);
    HonouredUnlockReleases(c.priv, tid, rd.privUnlock);
    var seen := Interleave(c, rd.others);
    var l := LockMutex(u.state, tid, rd.privLock);
    Decide(seen.(priv := l.state), ext, tid, ticket, rd, call, u.state)
  }

  /** The decision at the end of a pass, once the private mutex has been
      re-taken: `c2` is the condition variable as the pass now sees it, and
      `blocked` the private mutex as it stood during the kernel wait. */
  function Decide(c2: Cond, ext: Mutex, tid: Tid, ticket: u32, rd: WaitRound, call: WaitCall,
                  blocked: Mutex): (r: Pass)
    ensures r.call == call && r.blocked == blocked
    ensures r.cond.cond == c2.cond && r.cond.wakeId == c2.wakeId && r.cond.flags == c2.flags
    ensures r.exit.Pending? <==> rd.wait == WaitFailed(EAGAIN) && c2.wakeId < ticket
    ensures r.exit.Pending? ==> r.log == [PrivUnlock, PrivLock] && r.ext == ext && r.cond == c2
    ensures r.exit.Returned? ==> r.log == [PrivUnlock, PrivLock, PrivUnlock] && r.exit.code != EAGAIN
    ensures r.exit.Returned? ==> r.cond.priv == UnlockMutex(c2.priv, tid, rd.exitUnlock).state
    ensures rd.wait.Requeued? ==> r.exit == Returned(0) && OwnedBy(r.ext, tid)
    ensures rd.wait == WaitFailed(EAGAIN) && c2.wakeId >= ticket ==>
              r.exit == Returned(0) && r.ext == LockMutex(ext, tid, rd.extLock).state
    ensures rd.wait.WaitFailed? && rd.wait.errno != EAGAIN ==>
              r.exit == Returned(rd.wait.errno) && r.ext == LockMutex(ext, tid, rd.extLock).state
  {
    var q := UnlockMutex(c2.priv, tid, rd.exitUnlock);
    match rd.wait
    case Requeued(bits) =>
      Pass(Returned(0), c2.(priv := q.state), ext.(futex := GrantedWord(tid, bits)),
           [PrivUnlock, PrivLock, PrivUnlock], call, blocked)
    case WaitFailed(e) =>
      if e == EAGAIN && c2.wakeId < ticket then
        Pass(Pending, c2, ext, [PrivUnlock, PrivLock], call, blocked)
      else
        Pass(Returned(if e == EAGAIN then 0 else e), c2.(priv := q.state), LockMutex(ext, tid, rd.extLock).state,
             [PrivUnlock, PrivLock, PrivUnlock], call, blocked)
  }

  /** One pass re-takes the private mutex before deciding, and releases it on
      every way out, given a kernel that grants the re-acquisition and
      carries out the release. */
  lemma RunPassReleasesPrivate(c: Cond, ext: Mutex, tid: Tid, ticket: u32, deadline: Option<Deadline>,
                               rd: WaitRound)
    ensures var r := RunPass(c, ext, tid, ticket, deadline, rd);
            && (r.exit.Pending? && rd.privLock.Acquired? ==> OwnedBy(r.cond.priv, tid))
            && (r.exit.Returned? && UnlockHonoured(rd.exitUnlock, tid) ==> !OwnedBy(r.cond.priv, tid))
  {
    var u := UnlockMutex(c.priv, tid, rd.privUnlock);
    var l := LockMutex(u.state, tid, rd.privLock);
    HonouredUnlockReleases(l.state, tid, rd.exitUnlock);
  }

  /** A pass that loops again, followed by the rest of the loop: its kernel
      call comes first, and its release and re-acquisition of the private
      mutex keep the calls alternating. */
  function LoopAgain(p: Pass, ext: Mutex, rest: WaitRun): (r: WaitRun)
    requires p.log == [PrivUnlock, PrivLock]
    requires Alternating([PrivLock] + rest.log)
    ensures r.status == rest.status && r.cond == rest.cond && r.ext == rest.ext && r.ticket == None
    ensures r.calls == [p.call] + rest.calls && r.blocked == [p.blocked] + rest.blocked
    ensures r.waitExt == [ext] + rest.waitExt
    ensures Alternating([PrivLock] + r.log) && |r.log| == 2 + |rest.log|
  {
    AlternatingExtends(rest.log);
    assert [PrivLock] + (p.log + rest.log) == [PrivLock, PrivUnlock] + ([PrivLock] + rest.log);
    WaitRun(rest.status, rest.cond, rest.ext, p.log + rest.log, [p.call] + rest.calls,
            [p.blocked] + rest.blocked, [ext] + rest.waitExt, None)
  }

  /** The loop, entered holding the private mutex with the ticket taken. */
  function WaitLoop(c: Cond, ext: Mutex, tid: Tid, ticket: u32, deadline: Option<Deadline>,
                    rounds: seq<WaitRound>): (r: WaitRun)
    ensures r.ext.Some?
    ensures 0 < |r.calls| <= |rounds| || (|r.calls| == 0 && |rounds| == 0)
    ensures r.status.Pending? ==> |r.calls| == |rounds|
    ensures |r.calls| > 0 ==> r.calls[0].val == c.cond
    ensures forall i :: 0 <= i < |r.calls| ==> r.calls[i].deadline == deadline
    ensures Alternating([PrivLock] + r.log)
    ensures r.status.Returned? <==> |r.log| % 2 == 1
    ensures r.status.Returned? ==> r.status.code != EAGAIN
    ensures r.cond.flags == c.flags
    ensures r.ticket == None
    ensures |r.blocked| == |r.calls| && |r.waitExt| == |r.calls|
    decreases |rounds|
  {
    if |rounds| == 0 then WaitRun(Pending, c, Some(ext), [], [], [], [], None)
    else
      var p := RunPass(c, ext, tid, ticket, deadline, rounds[0]);
      if p.exit.Pending? then
        var rest := WaitLoop(p.cond, p.ext, tid, ticket, deadline, rounds[1..]);
        LoopAgain(p, ext, rest)
      else
        WaitRun(p.exit, p.cond, Some(p.ext), p.log, [p.call], [p.blocked], [ext], None)
  }

  /** The caller's mutex is left alone while the loop keeps waiting: every
      kernel wait is made with it as the loop was entered. */
  lemma {:induction false} WaitLoopKeepsExt(c: Cond, ext: Mutex, tid: Tid, ticket: u32,
                                            deadline: Option<Deadline>, rounds: seq<WaitRound>)
    ensures forall i :: 0 <= i < |WaitLoop(c, ext, tid, ticket, deadline, rounds).waitExt| ==>
              WaitLoop(c, ext, tid, ticket, deadline, rounds).waitExt[i] == ext
    decreases |rounds|
  {
    if |rounds| > 0 {
      var p := RunPass(c, ext, tid, ticket, deadline, rounds[0]);
      if p.exit.Pending? {
        var rest := WaitLoop(p.cond, p.ext, tid, ticket, deadline, rounds[1..]);
        var waitExt := WaitLoop(c, ext, tid, ticket, deadline, rounds).waitExt;
        assert waitExt == [ext] + rest.waitExt;
        WaitLoopKeepsExt(p.cond, p.ext, tid, ticket, deadline, rounds[1..]);
        forall i | 0 < i < |waitExt| ensures waitExt[i] == ext {
          assert waitExt[i] == rest.waitExt[i - 1];
        }
      }
    }
  }

  /** The slice identity the loop lemmas step through. */
  lemma InterferenceOfPrefix(rounds: seq<WaitRound>, i: nat)
    requires 0 < i <= |rounds|
    ensures Interference(rounds[..i]) == |rounds[0].others| + Interference(rounds[1..][..i - 1])
  {
    assert rounds[..i][1..] == rounds[1..][..i - 1];
  }

  /** Every pass reads the epoch afresh: the value the i-th kernel wait is
      given is the loop's starting epoch plus every step other threads took in
      the earlier passes. Stated without wrap-around. */
  lemma {:induction false} WaitLoopReadsFresh(c: Cond, ext: Mutex, tid: Tid, ticket: u32,
                                              deadline: Option<Deadline>, rounds: seq<WaitRound>)
    requires Room(c, Interference(rounds))
    ensures var r := WaitLoop(c, ext, tid, ticket, deadline, rounds);
            forall i :: 0 <= i < |r.calls| ==> r.calls[i].val == c.cond + Interference(rounds[..i])
    decreases |rounds|
  {
    var r := WaitLoop(c, ext, tid, ticket, deadline, rounds);
    if |rounds| > 0 {
      var p := RunPass(c, ext, tid, ticket, deadline, rounds[0]);
      InterleaveCountsSteps(c, rounds[0].others);
      InterferenceOfPrefix(rounds, 1);
      if p.exit.Pending? {
        var rest := WaitLoop(p.cond, p.ext, tid, ticket, deadline, rounds[1..]);
        assert r.calls == [p.call] + rest.calls;
        WaitLoopReadsFresh(p.cond, p.ext, tid, ticket, deadline, rounds[1..]);
        forall i | 0 < i < |r.calls|
          ensures r.calls[i].val == c.cond + Interference(rounds[..i])
        {
          assert r.calls[i] == rest.calls[i - 1];
          InterferenceOfPrefix(rounds, i);
        }
      }
    }
  }

  /** The loop ends with the epoch advanced by exactly the steps other threads
      took during the passes it made — the waiter itself adds nothing inside
      the loop — and with the invariant kept. Stated without wrap-around. */
  lemma {:induction false} WaitLoopCounts(c: Cond, ext: Mutex, tid: Tid, ticket: u32,
                                          deadline: Option<Deadline>, rounds: seq<WaitRound>)
    requires Room(c, Interference(rounds))
    ensures var r := WaitLoop(c, ext, tid, ticket, deadline, rounds);
            && r.cond.cond == c.cond + Interference(rounds[..|r.calls|])
            && (Inv(c) ==> Inv(r.cond) && r.cond.wakeId >= c.wakeId)
    decreases |rounds|
  {
    if |rounds| > 0 {
      var rd := rounds[0];
      var p := RunPass(c, ext, tid, ticket, deadline, rd);
      var r := WaitLoop(c, ext, tid, ticket, deadline, rounds);
      InterleaveCountsSteps(c, rd.others);
      if Inv(c) {
        InterleaveAdvances(c, rd.others);
      }
      if p.exit.Pending? {
        var rest := WaitLoop(p.cond, p.ext, tid, ticket, deadline, rounds[1..]);
        assert r.cond == rest.cond && |r.calls| == 1 + |rest.calls|;
        assert Room(p.cond, Interference(rounds[1..]));
        WaitLoopCounts(p.cond, p.ext, tid, ticket, deadline, rounds[1..]);
        InterferenceOfPrefix(rounds, 1 + |rest.calls|);
      } else {
        assert r.cond == p.cond && |r.calls| == 1;
        InterferenceOfPrefix(rounds, 1);
      }
    }
  }

  /** When the kernel grants every re-acquisition of the caller's mutex, every
      return from the loop leaves the caller owning it: a proper wake-up hands
      it over inside the kernel, and every other exit re-locks it. */
  lemma {:induction false} WaitLoopRelocks(c: Cond, ext: Mutex, tid: Tid, ticket: u32,
                                           deadline: Option<Deadline>, rounds: seq<WaitRound>)
    requires RelocksGranted(rounds)
    ensures var r := WaitLoop(c, ext, tid, ticket, deadline, rounds);
            r.status.Returned? ==> OwnedBy(r.ext.value, tid)
    decreases |rounds|
  {
    if |rounds| > 0 {
      var p := RunPass(c, ext, tid, ticket, deadline, rounds[0]);
      LockGrantedOwns(ext, tid, rounds[0].extLock);
      if p.exit.Pending? {
        assert RelocksGranted(rounds[1..]) by {
          forall i | 0 <= i < |rounds| - 1 ensures rounds[1..][i].extLock.Acquired? {
            assert rounds[1..][i] == rounds[i + 1];
          }
        }
        WaitLoopRelocks(p.cond, p.ext, tid, ticket, deadline, rounds[1..]);
      }
    }
  }

  /** What the loop returns is decided by its last pass alone: every earlier
      pass was sent round again by EAGAIN; the result is 0 exactly when the
      last kernel wait was a proper wake-up or an EAGAIN with a signal already
      published for the ticket; any other result is that wait's errno. */
  lemma {:induction false} WaitLoopResult(c: Cond, ext: Mutex, tid: Tid, ticket: u32,
                                          deadline: Option<Deadline>, rounds: seq<WaitRound>)
    ensures var r := WaitLoop(c, ext, tid, ticket, deadline, rounds);
            var k := |r.calls| - 1;
            && (r.status.Returned? ==> |r.calls| > 0)
            && (forall i :: 0 <= i < k ==> rounds[i].wait == WaitFailed(EAGAIN))
            && (r.status == Returned(0) <==>
                  r.status.Returned? && (rounds[k].wait.Requeued? || rounds[k].wait == WaitFailed(EAGAIN)))
            && (r.status.Returned? && r.status.code != 0 ==>
                  rounds[k].wait.WaitFailed? && rounds[k].wait.errno == r.status.code)
    decreases |rounds|
  {
    if |rounds| > 0 {
      var p := RunPass(c, ext, tid, ticket, deadline, rounds[0]);
      if p.exit.Pending? {
        var rest := WaitLoop(p.cond, p.ext, tid, ticket, deadline, rounds[1..]);
        WaitLoopResult(p.cond, p.ext, tid, ticket, deadline, rounds[1..]);
        forall i | 0 <= i < |rest.calls| ensures rounds[i + 1] == rounds[1..][i] {
        }
      }
    }
  }

  /** A return from the loop has released the private mutex, given that the
      kernel carries out the last pass's release. */
  lemma {:induction false} WaitLoopExitReleases(c: Cond, ext: Mutex, tid: Tid, ticket: u32,
                                                deadline: Option<Deadline>, rounds: seq<WaitRound>)
    ensures var r := WaitLoop(c, ext, tid, ticket, deadline, rounds);
            r.status.Returned? && UnlockHonoured(rounds[|r.calls| - 1].exitUnlock, tid) ==>
              !OwnedBy(r.cond.priv, tid)
    decreases |rounds|
  {
    if |rounds| > 0 {
      var p := RunPass(c, ext, tid, ticket, deadline, rounds[0]);
      RunPassReleasesPrivate(c, ext, tid, ticket, deadline, rounds[0]);
      if p.exit.Pending? {
        var rest := WaitLoop(p.cond, p.ext, tid, ticket, deadline, rounds[1..]);
        WaitLoopExitReleases(p.cond, p.ext, tid, ticket, deadline, rounds[1..]);
        if |rest.calls| > 0 {
          assert rounds[1..][|rest.calls| - 1] == rounds[|rest.calls|];
        }
      }
    }
  }

  /** A loop still running holds the private mutex, given that it was entered
      holding it and that the kernel grants every re-acquisition. */
  lemma {:induction false} WaitLoopPendingHolds(c: Cond, ext: Mutex, tid: Tid, ticket: u32,
                                                deadline: Option<Deadline>, rounds: seq<WaitRound>)
    ensures var r := WaitLoop(c, ext, tid, ticket, deadline, rounds);
            r.status.Pending? && OwnedBy(c.priv, tid) && PrivRelocked(rounds) ==> OwnedBy(r.cond.priv, tid)
    decreases |rounds|
  {
    if |rounds| > 0 && PrivRelocked(rounds) {
      var p := RunPass(c, ext, tid, ticket, deadline, rounds[0]);
      RunPassReleasesPrivate(c, ext, tid, ticket, deadline, rounds[0]);
      if p.exit.Pending? {
        assert PrivRelocked(rounds[1..]) by {
          forall i | 0 <= i < |rounds| - 1 ensures rounds[1..][i].privLock.Acquired? {
            assert rounds[1..][i] == rounds[i + 1];
          }
        }
        WaitLoopPendingHolds(p.cond, p.ext, tid, ticket, deadline, rounds[1..]);
      }
    }
  }

  /** The private mutex across the loop: a return has released it, given
      that the kernel carries out the last pass's release, and a loop still
      running holds it, given that the kernel grants every re-acquisition. */
  lemma WaitLoopReleasesPrivate(c: Cond, ext: Mutex, tid: Tid, ticket: u32,
                                deadline: Option<Deadline>, rounds: seq<WaitRound>)
    ensures var r := WaitLoop(c, ext, tid, ticket, deadline, rounds);
            && (r.status.Returned? && UnlockHonoured(rounds[|r.calls| - 1].exitUnlock, tid) ==>
                  !OwnedBy(r.cond.priv, tid))
            && (r.status.Pending? && OwnedBy(c.priv, tid) && PrivRelocked(rounds) ==>
                  OwnedBy(r.cond.priv, tid))
  {
    WaitLoopExitReleases(c, ext, tid, ticket, deadline, rounds);
    WaitLoopPendingHolds(c, ext, tid, ticket, deadline, rounds);
  }

  /** Every kernel wait of the loop blocks with the private mutex released,
      whenever the kernel carried out that pass's release. */
  lemma {:induction false} WaitLoopBlocksReleased(c: Cond, ext: Mutex, tid: Tid, ticket: u32,
                                                  deadline: Option<Deadline>, rounds: seq<WaitRound>)
    ensures forall i :: 0 <= i < |WaitLoop(c, ext, tid, ticket, deadline, rounds).blocked|
                        && UnlockHonoured(rounds[i].privUnlock, tid) ==>
              !OwnedBy(WaitLoop(c, ext, tid, ticket, deadline, rounds).blocked[i], tid)
    decreases |rounds|
  {
    if |rounds| > 0 {
      var p := RunPass(c, ext, tid, ticket, deadline, rounds[0]);
      var blocked := WaitLoop(c, ext, tid, ticket, deadline, rounds).blocked;
      if p.exit.Pending? {
        var rest := WaitLoop(p.cond, p.ext, tid, ticket, deadline, rounds[1..]);
        assert blocked == [p.blocked] + rest.blocked;
        WaitLoopBlocksReleased(p.cond, p.ext, tid, ticket, deadline, rounds[1..]);
        forall i | 0 < i < |blocked| && UnlockHonoured(rounds[i].privUnlock, tid)
          ensures !OwnedBy(blocked[i], tid)
        {
          assert blocked[i] == rest.blocked[i - 1] && rounds[i] == rounds[1..][i - 1];
        }
      }
    }
  }

  /** No lost wake-up: if another thread signals during pass `j`, after this
      waiter took its ticket, and the kernel reports EAGAIN whenever the word
      moved, the waiter returns no later than pass `j` — it never blocks again
      past a signal that covers its ticket. */
  lemma {:induction false} NoLostWakeup(c: Cond, ext: Mutex, tid: Tid, ticket: u32,
                                        deadline: Option<Deadline>, rounds: seq<WaitRound>, j: nat)
    requires Inv(c) && ticket <= c.cond
    requires Room(c, Interference(rounds))
    requires ReportsChange(rounds)
    requires j < |rounds| && OtherSignal in rounds[j].others
    ensures var r := WaitLoop(c, ext, tid, ticket, deadline, rounds);
            && r.status.Returned? && |r.calls| <= j + 1
            && (|r.calls| == j + 1 ==> r.status == Returned(0))
    decreases j
  {
    var rd := rounds[0];
    var p := RunPass(c, ext, tid, ticket, deadline, rd);
    InterleaveCountsSteps(c, rd.others);
    InterleaveAdvances(c, rd.others);
    if j == 0 {
      InterleavedSignalPublishes(c, rd.others);
      assert !p.exit.Pending?;
    } else if p.exit.Pending? {
      var tail := rounds[1..];
      assert tail[j - 1] == rounds[j];
      assert ReportsChange(tail) by {
        forall i | 0 <= i < |tail| && |tail[i].others| > 0
          ensures tail[i].wait == WaitFailed(EAGAIN)
        {
          assert tail[i] == rounds[i + 1];
        }
      }
      NoLostWakeup(p.cond, p.ext, tid, ticket, deadline, tail, j - 1);
    }
  }

  /** Prefixing a lock-unlock pair keeps calls alternating. */
  lemma AlternatingExtends(log: seq<PrivOp>)
    requires Alternating([PrivLock] + log)
    ensures Alternating([PrivLock, PrivUnlock] + ([PrivLock] + log))
  {
    var x := [PrivLock] + log;
    var y := [PrivLock, PrivUnlock] + x;
    forall i | 0 <= i < |y|
      ensures y[i] == (if i % 2 == 0 then PrivLock else PrivUnlock)
    {
      if i >= 2 {
        assert y[i] == x[i - 2];
        EvenShiftKeepsParity(i, 2);
      }
    }
  }

  /** The loop's calls, after the lock taken before the loop, form matched
      pairs once the loop has made an odd number of calls. */
  lemma FirstLockCompletes(log: seq<PrivOp>)
    ensures Alternating([PrivLock] + log) && |log| % 2 == 1 ==> Released([PrivLock] + log)
  {
  }

  /** `pi_cond_timedwait` when releasing the caller's mutex fails: release the
      private mutex again and return that error, with no ticket taken. */
  function AbortWait(c: Cond, priv: Mutex, ext: Option<Mutex>, err: int, tid: Tid,
                     k: UnlockReply): (r: WaitRun)
    ensures r.status == Returned(err) && r.ext == ext
    ensures r.cond.cond == c.cond && r.cond.wakeId == c.wakeId && r.cond.flags == c.flags
    ensures r.log == [PrivLock, PrivUnlock] && r.calls == [] && r.blocked == [] && r.waitExt == []
    ensures r.ticket == None
    ensures UnlockHonoured(k, tid) ==> !OwnedBy(r.cond.priv, tid)
  {
    var p := UnlockMutex(priv, tid, k);
    HonouredUnlockReleases(priv, tid, k);
    WaitRun(Returned(err), c.(priv := p.state), ext, [PrivLock, PrivUnlock], [], [], [], None)
  }

  /** `pi_cond_timedwait`. */
  function TimedWait(c: Cond, ext: Option<Mutex>, tid: Tid, deadline: Option<Deadline>,
                     o: WaitOracle): (r: WaitRun)
    ensures |r.calls| <= |o.rounds|
    // The private lock fails: that error, nothing touched.
    ensures LockMutex(c.priv, tid, o.privLock).ret != 0 ==>
              r == WaitRun(Returned(LockMutex(c.priv, tid, o.privLock).ret), c, ext, [PrivLock], [], [], [], None)
    // Releasing the caller's mutex fails: that error, the private mutex
    // released again, and no ticket taken.
    ensures LockMutex(c.priv, tid, o.privLock).ret == 0 && Unlock(ext, tid, o.extUnlock).ret != 0 ==>
              r.status == Returned(Unlock(ext, tid, o.extUnlock).ret)
              && r.cond.cond == c.cond && r.cond.wakeId == c.wakeId
              && r.log == [PrivLock, PrivUnlock] && r.calls == [] && r.ticket == None
              && r.ext == ext
    // Otherwise the ticket is the epoch after exactly one increment, and the
    // first kernel wait is on the ticket value.
    ensures LockMutex(c.priv, tid, o.privLock).ret == 0 && Unlock(ext, tid, o.extUnlock).ret == 0 ==>
              r.ticket == Some(Bump(c.cond))
              && (|r.calls| > 0 ==> r.calls[0].val == Bump(c.cond))
              && (r.status.Returned? ==> r.status.code != EAGAIN)
              && (Room(c, 1 + Interference(o.rounds)) ==>
                    r.cond.cond == c.cond + 1 + Interference(o.rounds[..|r.calls|]))
              && (r.status.Returned? && RelocksGranted(o.rounds) ==> r.ext.Some? && OwnedBy(r.ext.value, tid))
    // ... and the last kernel wait decides the result: 0 for a proper wake-up
    // or for EAGAIN with a signal already published for the ticket, that
    // wait's errno otherwise (a timeout included); every earlier wait gave
    // EAGAIN.
    ensures LockMutex(c.priv, tid, o.privLock).ret == 0 && Unlock(ext, tid, o.extUnlock).ret == 0 ==>
              (r.status.Returned? ==> |r.calls| > 0)
              && (forall i :: 0 <= i < |r.calls| - 1 ==> o.rounds[i].wait == WaitFailed(EAGAIN))
              && (r.status == Returned(0) <==>
                    r.status.Returned? && (o.rounds[|r.calls| - 1].wait.Requeued?
                                           || o.rounds[|r.calls| - 1].wait == WaitFailed(EAGAIN)))
              && (r.status.Returned? && r.status.code != 0 ==>
                    o.rounds[|r.calls| - 1].wait.WaitFailed? && o.rounds[|r.calls| - 1].wait.errno == r.status.code)
              && (r.status.Pending? && PrivRelocked(o.rounds) ==> OwnedBy(r.cond.priv, tid))
    ensures ext.None? && LockMutex(c.priv, tid, o.privLock).ret == 0 ==> r.status == Returned(EINVAL)
    // Private-lock discipline: the log is [PrivLock] only when that first
    // lock failed; every other return has released the private mutex.
    ensures Alternating(r.log)
    ensures r.status.Returned? ==> r.log == [PrivLock] || Released(r.log)
    // ... and, when the kernel carries out each release, a caller that did not
    // hold the private mutex does not hold it on return.
    ensures r.status.Returned? && !OwnedBy(c.priv, tid)
            && UnlockHonoured(o.abortUnlock, tid) && ExitsHonoured(o.rounds, tid) ==>
              !OwnedBy(r.cond.priv, tid)
    // Every kernel wait blocks with the private mutex released, whenever the
    // kernel carried out that release.
    ensures |r.blocked| == |r.calls|
    ensures forall i :: 0 <= i < |r.blocked| && UnlockHonoured(o.rounds[i].privUnlock, tid) ==>
              !OwnedBy(r.blocked[i], tid)
    // Every kernel wait is made with the caller's mutex released, given a
    // kernel that hands it to another thread or to nobody.
    ensures |r.waitExt| == |r.calls|
    ensures LockMutex(c.priv, tid, o.privLock).ret == 0 && Unlock(ext, tid, o.extUnlock).ret == 0
            && HandsOffToOther(o.extUnlock, tid) ==>
              forall i :: 0 <= i < |r.waitExt| ==> !OwnedBy(r.waitExt[i], tid)
    ensures forall i :: 0 <= i < |r.calls| ==> r.calls[i].deadline == deadline
    ensures Inv(c) && Room(c, 1 + Interference(o.rounds)) ==> Inv(r.cond)
    ensures r.cond.flags == c.flags
  {
    var l := LockMutex(c.priv, tid, o.privLock);
    if l.ret != 0 then WaitRun(Returned(l.ret), c, ext, [PrivLock], [], [], [], None)
    else
      var u := Unlock(ext, tid, o.extUnlock);
      if u.ret != 0 then AbortWait(c, l.state, u.state, u.ret, tid, o.abortUnlock)
      else
        var c1 := Ticket(c.(priv := l.state));
        HandleUnlockReleases(ext, tid, o.extUnlock);
        AfterTicket(c, c1, u.state.value, tid, deadline, o.rounds)
  }

  /** A successful `pi_mutex_unlock` through a handle leaves the caller not
      owning the mutex, given a kernel that hands it to another thread or to
      nobody. */
  lemma HandleUnlockReleases(h: Option<Mutex>, tid: Tid, kernel: UnlockReply)
    ensures Unlock(h, tid, kernel).ret == 0 && HandsOffToOther(kernel, tid) ==>
              !OwnedBy(Unlock(h, tid, kernel).state.value, tid)
  {
    if h.Some? && Unlock(h, tid, kernel).ret == 0 && HandsOffToOther(kernel, tid) {
      UnlockReleasesOwnership(h.value, tid, kernel);
    }
  }

  /** The part of `pi_cond_timedwait` after the ticket is taken: the loop,
      entered holding the private mutex, with the first lock of the private
      mutex in front of its log. */
  function AfterTicket(c: Cond, c1: Cond, ext: Mutex, tid: Tid, deadline: Option<Deadline>,
                       rounds: seq<WaitRound>): (r: WaitRun)
    requires c1.cond == Bump(c.cond) && c1.wakeId == c.wakeId && c1.flags == c.flags
    ensures r.ticket == Some(c1.cond) && r.ext.Some?
    ensures |r.calls| <= |rounds| && (r.status.Returned? ==> |r.calls| > 0)
    ensures |r.calls| > 0 ==> r.calls[0].val == c1.cond
    ensures forall i :: 0 <= i < |r.calls| ==> r.calls[i].deadline == deadline
    ensures r.status.Returned? ==> r.status.code != EAGAIN
    ensures Room(c, 1 + Interference(rounds)) ==>
              r.cond.cond == c.cond + 1 + Interference(rounds[..|r.calls|])
              && (Inv(c) ==> Inv(r.cond))
    ensures Room(c, 1 + Interference(rounds)) ==>
              forall i :: 0 <= i < |r.calls| ==> r.calls[i].val == c.cond + 1 + Interference(rounds[..i])
    ensures r.status.Returned? && RelocksGranted(rounds) ==> OwnedBy(r.ext.value, tid)
    ensures forall i :: 0 <= i < |r.calls| - 1 ==> rounds[i].wait == WaitFailed(EAGAIN)
    ensures r.status == Returned(0) <==>
              r.status.Returned? && (rounds[|r.calls| - 1].wait.Requeued?
                                     || rounds[|r.calls| - 1].wait == WaitFailed(EAGAIN))
    ensures r.status.Returned? && r.status.code != 0 ==>
              rounds[|r.calls| - 1].wait.WaitFailed? && rounds[|r.calls| - 1].wait.errno == r.status.code
    ensures r.status.Returned? && ExitsHonoured(rounds, tid) ==> !OwnedBy(r.cond.priv, tid)
    ensures r.status.Pending? && OwnedBy(c1.priv, tid) && PrivRelocked(rounds) ==> OwnedBy(r.cond.priv, tid)
    ensures Alternating(r.log) && (r.status.Returned? ==> Released(r.log))
    ensures |r.blocked| == |r.calls|
    ensures forall i :: 0 <= i < |r.blocked| && UnlockHonoured(rounds[i].privUnlock, tid) ==>
              !OwnedBy(r.blocked[i], tid)
    ensures |r.waitExt| == |r.calls| && forall i :: 0 <= i < |r.waitExt| ==> r.waitExt[i] == ext
    ensures r.cond.flags == c.flags
  {
    var loop := WaitLoop(c1, ext, tid, c1.cond, deadline, rounds);
    WaitLoopBlocksReleased(c1, ext, tid, c1.cond, deadline, rounds);
    WaitLoopKeepsExt(c1, ext, tid, c1.cond, deadline, rounds);
    WaitLoopFacts(c, c1, ext, tid, deadline, rounds);
    WaitLoopResult(c1, ext, tid, c1.cond, deadline, rounds);
    WaitLoopReleasesPrivate(c1, ext, tid, c1.cond, deadline, rounds);
    FirstLockCompletes(loop.log);
    WaitRun(loop.status, loop.cond, loop.ext, [PrivLock] + loop.log, loop.calls, loop.blocked, loop.waitExt,
            Some(c1.cond))
  }

  /** The counting and re-locking lemmas, restated for the state the loop is
      entered in. */
  lemma WaitLoopFacts(c: Cond, c1: Cond, ext: Mutex, tid: Tid, deadline: Option<Deadline>,
                      rounds: seq<WaitRound>)
    requires c1.cond == Bump(c.cond) && c1.wakeId == c.wakeId
    ensures var r := WaitLoop(c1, ext, tid, c1.cond, deadline, rounds);
            && (Room(c, 1 + Interference(rounds)) ==>
                  r.cond.cond == c.cond + 1 + Interference(rounds[..|r.calls|])
                  && (Inv(c) ==> Inv(r.cond))
                  && forall i :: 0 <= i < |r.calls| ==> r.calls[i].val == c.cond + 1 + Interference(rounds[..i]))
            && (r.status.Returned? && RelocksGranted(rounds) ==> OwnedBy(r.ext.value, tid))
  {
    if Room(c, 1 + Interference(rounds)) {
      WaitLoopCounts(c1, ext, tid, c1.cond, deadline, rounds);
      WaitLoopReadsFresh(c1, ext, tid, c1.cond, deadline, rounds);
    }
    if RelocksGranted(rounds) {
      WaitLoopRelocks(c1, ext, tid, c1.cond, deadline, rounds);
    }
  }

  /** No lost wake-up for a whole call: once the waiter has taken its ticket
      and released the caller's mutex, a signal by another thread during pass
      `j` makes the call return no later than that pass, given a kernel that
      reports EAGAIN whenever the word moved. Stated without wrap-around. */
  lemma TimedWaitSeesSignal(c: Cond, ext: Option<Mutex>, tid: Tid, deadline: Option<Deadline>,
                            o: WaitOracle, j: nat)
    requires LockMutex(c.priv, tid, o.privLock).ret == 0 && Unlock(ext, tid, o.extUnlock).ret == 0
    requires Inv(c) && Room(c, 1 + Interference(o.rounds))
    requires ReportsChange(o.rounds)
    requires j < |o.rounds| && OtherSignal in o.rounds[j].others
    ensures var r := TimedWait(c, ext, tid, deadline, o);
            && r.status.Returned? && |r.calls| <= j + 1
            && (|r.calls| == j + 1 ==> r.status == Returned(0))
  {
    var l := LockMutex(c.priv, tid, o.privLock);
    var u := Unlock(ext, tid, o.extUnlock);
    var c1 := Ticket(c.(priv := l.state));
    NoLostWakeup(c1, u.state.value, tid, c1.cond, deadline, o.rounds, j);
  }

  /** Each pass of a whole call reads the epoch afresh: the i-th kernel wait
      is on the ticket plus every step other threads took in the earlier
      passes. Stated without wrap-around. */
  lemma TimedWaitReadsFresh(c: Cond, ext: Option<Mutex>, tid: Tid, deadline: Option<Deadline>,
                            o: WaitOracle)
    requires Room(c, 1 + Interference(o.rounds))
    ensures var r := TimedWait(c, ext, tid, deadline, o);
            LockMutex(c.priv, tid, o.privLock).ret == 0 && Unlock(ext, tid, o.extUnlock).ret == 0 ==>
              forall i :: 0 <= i < |r.calls| ==> r.calls[i].val == c.cond + 1 + Interference(o.rounds[..i])
  {
  }

  /** A deadline that passes during the first kernel wait is reported to the
      caller as ETIMEDOUT, after that single wait. */
  lemma TimedWaitReportsTimeout(c: Cond, ext: Option<Mutex>, tid: Tid, deadline: Option<Deadline>,
                                o: WaitOracle)
    requires LockMutex(c.priv, tid, o.privLock).ret == 0 && Unlock(ext, tid, o.extUnlock).ret == 0
    requires |o.rounds| > 0 && o.rounds[0].wait == WaitFailed(ETIMEDOUT)
    ensures var r := TimedWait(c, ext, tid, deadline, o);
            r.status == Returned(ETIMEDOUT) && |r.calls| == 1
  {
  }

  /** `pi_cond_wait`: a timed wait without a deadline. */
  function Wait(c: Cond, ext: Option<Mutex>, tid: Tid, o: WaitOracle): (r: WaitRun)
    ensures forall i :: 0 <= i < |r.calls| ==> r.calls[i].deadline.None?
    ensures r == TimedWait(c, ext, tid, None, o)
  {
    TimedWait(c, ext, tid, None, o)
  }
}

=== FILE: kernel.dfy ===
/** The four kernel futex operations the library relies on, as oracles: the
    model never computes what the kernel does, it is told the outcome of each
    call. Every reply is either a success carrying what the kernel left behind,
    or a failure carrying the `errno` the call set. */
module Kernel {
  import opened Base

  /** Outcome of `futex_lock_pi`: on success the caller owns the word, and the
      kernel may have set waiter bits above the owner bits. */
  datatype LockReply = Acquired(waiterBits: bv32) | LockFailed(errno: Errno)

  /** Outcome of `futex_unlock_pi`: on success the kernel has stored `word`,
      naming the waiter it handed the lock to (or 0 when none was left). */
  datatype UnlockReply = HandedOff(word: bv32) | UnlockFailed(errno: Errno)

  /** Outcome of `futex_wait_requeue_pi`: a proper wake-up leaves the caller
      owning the external mutex; a failure reports `errno` (EAGAIN when the
      condition word no longer held the value passed in, ETIMEDOUT on a
      deadline, anything else otherwise). */
  datatype WaitReply = Requeued(waiterBits: bv32) | WaitFailed(errno: Errno)

  /** Outcome of `futex_cmp_requeue_pi`: a non-negative count of waiters woken
      or moved, or a failure with `errno`. */
  datatype RequeueReply = Moved(count: nat) | RequeueFailed(errno: Errno)

  /** An absolute deadline, passed through to the kernel untouched. */
  datatype Deadline = Deadline(sec: int, nsec: int)
}

=== FILE: lock_save.dfy ===
/** The `pi_mutex_lock_save` / `pi_mutex_unlock_restore` helpers of
    `src/rtpi_internal.h`: lock a mutex unless the caller already holds it,
    remember which case applied, and later release it only if this helper
    was the one that took it. */
module LockSave {
  import opened Base
  import opened Kernel
  import opened ThreadId
  import opened PiMutex

  /** The helper's result: its return code, whether the caller already held the
      mutex (the macro's `state`), and the mutex afterwards. */
  datatype Saved = Saved(ret: int, alreadyHeld: bool, mutex: Mutex)

  /** `pi_mutex_lock_save`: EDEADLOCK from trylock means "already mine" and is
      reported as success; EBUSY falls back to the kernel's PI lock. */
  function LockSaveOp(m: Mutex, tid: Tid, kernel: LockReply): (r: Saved)
    ensures r.alreadyHeld <==> OwnedBy(m, tid)
    ensures OwnedBy(m, tid) ==> r.ret == 0 && r.mutex == m
    ensures m.futex == 0 ==> r.ret == 0 && r.mutex == m.(futex := tid)
    ensures !OwnedBy(m, tid) && m.futex != 0 ==>
              (kernel.Acquired? ==> r.ret == 0 && OwnedBy(r.mutex, tid))
              && (kernel.LockFailed? ==> r.ret == kernel.errno && r.mutex == m)
    ensures r.ret == 0 ==> OwnedBy(r.mutex, tid)
  {
    var t := TryLock(m, tid);
    assert t.ret == EBUSY <==> !OwnedBy(m, tid) && m.futex != 0;
    if t.ret == 0 then Saved(0, false, t.state)
    else if t.ret == EDEADLOCK then Saved(0, true, t.state)
    else
      match kernel
      case Acquired(bits) => Saved(0, false, m.(futex := GrantedWord(tid, bits)))
      case LockFailed(e) => Saved(e, false, m)
  }

  /** `pi_mutex_unlock_restore`: unlock only when the mutex was not already held. */
  function UnlockRestoreOp(m: Mutex, alreadyHeld: bool, tid: Tid, kernel: UnlockReply): (r: Step<Mutex>)
    ensures alreadyHeld ==> r == Step(0, m)
    ensures !alreadyHeld ==> r == UnlockMutex(m, tid, kernel)
  {
    if alreadyHeld then Step(0, m) else UnlockMutex(m, tid, kernel)
  }

  /** Apart from reporting "already held" as success, lock-save behaves exactly
      like `pi_mutex_lock`. */
  lemma LockSaveAgreesWithLock(m: Mutex, tid: Tid, kernel: LockReply)
    ensures var s := LockSaveOp(m, tid, kernel);
            var l := LockMutex(m, tid, kernel);
            s.mutex == l.state
            && (s.alreadyHeld <==> TryLock(m, tid).ret == EDEADLOCK)
            && s.ret == (if s.alreadyHeld then 0 else l.ret)
  {
  }

  /** Lock-save followed by unlock-restore leaves the caller's ownership as it
      was: a mutex it held, or a free one, comes back unchanged, and a mutex
      taken through the kernel is given up again when the kernel hands it to
      another thread. */
  lemma SaveRestoreRoundTrip(m: Mutex, tid: Tid, kl: LockReply, ku: UnlockReply)
    requires HandsOffToOther(ku, tid)
    ensures var s := LockSaveOp(m, tid, kl);
            var u := UnlockRestoreOp(s.mutex, s.alreadyHeld, tid, ku);
            (s.ret == 0 && u.ret == 0 ==> (OwnedBy(u.state, tid) <==> OwnedBy(m, tid)))
            && (OwnedBy(m, tid) ==> u == Step(0, m))
            && (m.futex == 0 ==> u == Step(0, m))
  {
    var s := LockSaveOp(m, tid, kl);
    var u := UnlockRestoreOp(s.mutex, s.alreadyHeld, tid, ku);
    if !s.alreadyHeld && s.ret == 0 && u.ret == 0 {
      UnlockReleasesOwnership(s.mutex, tid, ku);
    }
  }
}

=== FILE: pi_cond.dfy ===
/** The state of the PI condition variable of `src/pi_cond.c`: the epoch
    counter `cond`, the last published epoch `wakeId`, the flags, and the
    private PI mutex that serialises updates to both counters. Also the two
    counter steps every thread performs under that private mutex — taking a
    wait ticket and publishing a signal — and what other threads' steps do to
    the counters while the calling thread does not hold the private mutex. */
module PiCond {
  import opened Base
  import opened PiMutex

  const RTPI_COND_PSHARED: bv32 := 1

  datatype Cond = Cond(cond: u32, flags: bv32, wakeId: u32, priv: Mutex)

  /** The epoch invariant: the last published epoch never runs ahead of the
      current one. */
  predicate Inv(c: Cond)
  {
    c.wakeId <= c.cond
  }

  /** The all-zero state `memset` leaves behind. */
  function Zeroed(): (c: Cond)
    ensures c.cond == 0 && c.wakeId == 0 && c.flags == 0
    ensures c.priv == PiMutex.StaticInit(0)
  {
    Cond(0, 0, 0, Mutex(0, 0))
  }

  /** `PI_COND_INIT`: the static initialiser. The embedded private mutex is
      zero-filled, like every field the initialiser does not name. */
  function StaticInit(f: bv32): (c: Cond)
    ensures c.cond == 0 && c.wakeId == 0 && c.flags == f
    ensures Inv(c)
    ensures Owner(c.priv) == 0
  {
    Zeroed().(flags := f)
  }

  /** `pi_cond_init`. Unknown flags are rejected before anything is written.
      Otherwise the state is zeroed, the flags recorded, and the private mutex
      initialised with the same process-shared bit; that call's return value is
      ignored, and `onceRet` is what its `pthread_once` reports. */
  function Init(c: Cond, flags: bv32, onceRet: int): (r: Step<Cond>)
    ensures flags & !RTPI_COND_PSHARED != 0 ==> r == Step(EINVAL, c)
    ensures flags & !RTPI_COND_PSHARED == 0 ==>
              r.ret == 0 && r.state.cond == 0 && r.state.wakeId == 0 && Inv(r.state)
              && (r.state.flags == RTPI_COND_PSHARED <==> flags == RTPI_COND_PSHARED)
              && (r.state.flags == 0 <==> flags == 0)
              && r.state.priv.futex == 0
              && (onceRet == 0 ==> r.state.priv.flags == r.state.flags)
              && (onceRet != 0 ==> r.state.priv.flags == 0)
  {
    if flags & !RTPI_COND_PSHARED != 0 then Step(EINVAL, c)
    else
      var z := Zeroed();
      var z1 := if flags & RTPI_COND_PSHARED != 0 then z.(flags := RTPI_COND_PSHARED) else z;
      var p := PiMutex.Init(z1.priv, z1.flags & RTPI_COND_PSHARED, onceRet);
      Step(0, z1.(priv := p.state))
  }

  /** `pi_cond_destroy`: zeroes everything and always succeeds. */
  function Destroy(c: Cond): (r: Step<Cond>)
    ensures r.ret == 0 && r.state == StaticInit(0)
    ensures Inv(r.state)
  {
    Step(0, Zeroed())
  }

  /** Destroy followed by a successful init restores the initial invariants:
      epoch and marker at zero and the private mutex unlocked. */
  lemma DestroyThenInit(c: Cond, flags: bv32, onceRet: int)
    requires flags & !RTPI_COND_PSHARED == 0
    ensures var r := Init(Destroy(c).state, flags, onceRet);
            r.ret == 0 && Inv(r.state) && r.state.cond == 0 && Owner(r.state.priv) == 0
  {
  }

  /** A waiter takes its ticket: `cond++`. */
  function Ticket(c: Cond): (r: Cond)
    ensures r.cond == Bump(c.cond)
    ensures r.wakeId == c.wakeId && r.flags == c.flags && r.priv == c.priv
    ensures Inv(c) && c.cond < U32_MAX ==> Inv(r) && r.cond == c.cond + 1
  {
    c.(cond := Bump(c.cond))
  }

  /** A signaller publishes a new epoch: `cond++` then `wake_id = cond`. */
  function Publish(c: Cond): (r: Cond)
    ensures r.cond == Bump(c.cond) && r.wakeId == r.cond
    ensures Inv(r)
    ensures r.flags == c.flags && r.priv == c.priv
    ensures c.cond < U32_MAX ==> r.cond == c.cond + 1 && r.cond > c.cond
  {
    var n := Bump(c.cond);
    c.(cond := n, wakeId := n)
  }

  /** Why the invariant is stated without wrap-around: a ticket taken at the
      top of the 32-bit range wraps the epoch to 0 and leaves the marker ahead
      of it. */
  lemma TicketAtTopWraps(c: Cond)
    requires c.cond == U32_MAX && c.wakeId > 0
    ensures Inv(c) && !Inv(Ticket(c))
    ensures Ticket(c).cond == 0
  {
  }

  /** What another thread does to the counters while the calling thread does
      not hold the private mutex: take a wait ticket or publish a signal. */
  datatype Event = OtherWait | OtherSignal

  function Apply(c: Cond, e: Event): Cond
  {
    match e
    case OtherWait => Ticket(c)
    case OtherSignal => Publish(c)
  }

  /** The counters after a run of other threads' steps, in order. */
  function Interleave(c: Cond, es: seq<Event>): (r: Cond)
    ensures r.flags == c.flags && r.priv == c.priv
    decreases |es|
  {
    if |es| == 0 then c else Interleave(Apply(c, es[0]), es[1..])
  }

  /** Room for `n` more increments before the 32-bit counter wraps. */
  predicate Room(c: Cond, n: nat)
  {
    c.cond + n <= U32_MAX
  }

  /** Without wrap-around, each step of another thread adds one to the epoch. */
  lemma {:induction false} InterleaveCountsSteps(c: Cond, es: seq<Event>)
    requires Room(c, |es|)
    ensures Interleave(c, es).cond == c.cond + |es|
    decreases |es|
  {
    if |es| > 0 {
      InterleaveCountsSteps(Apply(c, es[0]), es[1..]);
    }
  }

  /** Other threads' steps advance the epoch by exactly one per step, never
      move the marker backwards, keep the invariant, and touch nothing but the
      two counters — as long as the counter does not wrap. */
  lemma {:induction false} InterleaveAdvances(c: Cond, es: seq<Event>)
    requires Inv(c) && Room(c, |es|)
    ensures Interleave(c, es).cond == c.cond + |es|
    ensures Interleave(c, es).wakeId >= c.wakeId
    ensures Inv(Interleave(c, es))
    decreases |es|
  {
    InterleaveCountsSteps(c, es);
    if |es| > 0 {
      InterleaveAdvances(Apply(c, es[0]), es[1..]);
    }
  }

  /** A signal among other threads' steps publishes an epoch past the one the
      run started from, and later steps never lower it. */
  lemma {:induction false} InterleavedSignalPublishes(c: Cond, es: seq<Event>)
    requires Inv(c) && Room(c, |es|)
    requires OtherSignal in es
    ensures Interleave(c, es).wakeId > c.cond
    decreases |es|
  {
    var c1 := Apply(c, es[0]);
    if es[0] == OtherSignal {
      InterleaveAdvances(c1, es[1..]);
    } else {
      assert OtherSignal in es[1..];
      InterleavedSignalPublishes(c1, es[1..]);
    }
  }

  /** A call the calling thread makes on the private mutex. */
  datatype PrivOp = PrivLock | PrivUnlock

  /** Calls on the private mutex alternate lock, unlock, lock, ..., starting
      with a lock. */
  predicate Alternating(log: seq<PrivOp>)
  {
    forall i :: 0 <= i < |log| ==> log[i] == (if i % 2 == 0 then PrivLock else PrivUnlock)
  }

  /** Shifting a position by an even amount keeps its place in the
      alternation. */
  lemma EvenShiftKeepsParity(i: int, n: int)
    requires n % 2 == 0
    ensures (i - n) % 2 == i % 2
  {
  }

  /** Lock discipline at exit: alternating calls, every lock matched by the
      unlock that follows it, the last call an unlock. */
  predicate Released(log: seq<PrivOp>)
  {
    Alternating(log) && |log| > 0 && |log| % 2 == 0
  }

  /** Where a looping call stands: it has returned `code`, or it is still
      looping when the kernel replies supplied to the model run out. */
  datatype Status = Returned(code: int) | Pending
}

=== FILE: pi_mutex.dfy ===
/** The PI mutex of `src/pi_mutex.c`: a 32-bit futex word whose low 30 bits
    name the owning thread (0 when unlocked) and whose high bits belong to the
    kernel, plus a flags word. Every operation is one atomic step from a mutex
    and the caller's thread id to a return code and the mutex afterwards; the
    kernel's slow paths are oracle replies. */
module PiMutex {
  import opened Base
  import opened Kernel
  import opened ThreadId

  const RTPI_MUTEX_PSHARED: bv32 := 1

  datatype Mutex = Mutex(futex: bv32, flags: bv32)

  /** A return code together with the state the call leaves behind. */
  datatype Step<S> = Step(ret: int, state: S)

  /** The thread id held in the owner bits; 0 when nobody owns the mutex. */
  function Owner(m: Mutex): bv32
  {
    m.futex & FUTEX_TID_MASK
  }

  predicate OwnedBy(m: Mutex, tid: Tid)
  {
    Owner(m) == tid
  }

  /** The high bits of a futex word, where the kernel records waiters. */
  function WaiterBits(w: bv32): bv32
  {
    w & !FUTEX_TID_MASK
  }

  /** The word the kernel leaves when it grants the lock to `tid`. */
  function GrantedWord(tid: Tid, waiterBits: bv32): (w: bv32)
    ensures w & FUTEX_TID_MASK == tid
    ensures WaiterBits(w) == WaiterBits(waiterBits)
  {
    tid | WaiterBits(waiterBits)
  }

  /** `PI_MUTEX_INIT(f)`: the static initialiser. */
  function StaticInit(f: bv32): (m: Mutex)
    ensures m.futex == 0 && Owner(m) == 0
    ensures m.flags == f
  {
    Mutex(0, f)
  }

  /** `pi_mutex_init`. `onceRet` is what `pthread_once` returned while
      installing the fork handler; a non-zero value is returned untouched and
      the mutex is not written. The state is zeroed before the flags are
      checked, so a rejected call still leaves a zeroed mutex. */
  function Init(m: Mutex, flags: bv32, onceRet: int): (r: Step<Mutex>)
    ensures onceRet != 0 ==> r == Step(onceRet, m)
    ensures onceRet == 0 && flags & !RTPI_MUTEX_PSHARED != 0 ==>
              r.ret == EINVAL && r.state == Mutex(0, 0)
    ensures onceRet == 0 && flags & !RTPI_MUTEX_PSHARED == 0 ==>
              r.ret == 0 && r.state.futex == 0
              && (r.state.flags == RTPI_MUTEX_PSHARED <==> flags == RTPI_MUTEX_PSHARED)
              && (r.state.flags == 0 <==> flags == 0)
  {
    if onceRet != 0 then Step(onceRet, m)
    else
      var zeroed := Mutex(0, 0);
      if flags & !RTPI_MUTEX_PSHARED != 0 then Step(EINVAL, zeroed)
      else if flags & RTPI_MUTEX_PSHARED != 0 then Step(0, zeroed.(flags := RTPI_MUTEX_PSHARED))
      else Step(0, zeroed)
  }

  /** `pi_mutex_destroy`: zeroes the state and always succeeds. */
  function Destroy(m: Mutex): (r: Step<Mutex>)
    ensures r.ret == 0
    ensures r.state == StaticInit(0)
  {
    Step(0, Mutex(0, 0))
  }

  /** `pi_mutex_trylock`: fails with EDEADLOCK when the caller already owns the
      mutex, takes it when the word is exactly 0, and reports EBUSY otherwise. */
  function TryLock(m: Mutex, tid: Tid): (r: Step<Mutex>)
    ensures OwnedBy(m, tid) ==> r == Step(EDEADLOCK, m)
    ensures !OwnedBy(m, tid) ==> (r.ret == 0 <==> m.futex == 0)
    ensures !OwnedBy(m, tid) && m.futex == 0 ==> r.state == m.(futex := tid) && OwnedBy(r.state, tid)
    ensures !OwnedBy(m, tid) && m.futex != 0 ==> r == Step(EBUSY, m)
    ensures r.ret in {0, EBUSY, EDEADLOCK}
    ensures r.state.flags == m.flags
  {
    if tid == Owner(m) then Step(EDEADLOCK, m)
    else if m.futex == 0 then Step(0, m.(futex := tid))
    else Step(EBUSY, m)
  }

  /** `pi_mutex_lock` on a valid mutex: the trylock result when that is 0 or
      EDEADLOCK, and otherwise the kernel's PI lock. */
  function LockMutex(m: Mutex, tid: Tid, kernel: LockReply): (r: Step<Mutex>)
    ensures TryLock(m, tid).ret != EBUSY ==> r == TryLock(m, tid)
    ensures TryLock(m, tid).ret == EBUSY && kernel.Acquired? ==>
              r.ret == 0 && OwnedBy(r.state, tid)
    ensures TryLock(m, tid).ret == EBUSY && kernel.LockFailed? ==> r == Step(kernel.errno, m)
    ensures r.ret == 0 ==> OwnedBy(r.state, tid)
    ensures r.ret != 0 ==> r.state == m
    ensures r.state.flags == m.flags
  {
    var t := TryLock(m, tid);
    if t.ret == 0 || t.ret == EDEADLOCK then t
    else
      assert !OwnedBy(m, tid) && t == Step(EBUSY, m);
      match kernel
      case Acquired(bits) => Step(0, m.(futex := GrantedWord(tid, bits)))
      case LockFailed(e) => Step(e, m)
  }

  /** When the kernel grants a contended lock, the word it leaves names the
      caller as owner and keeps the waiter bits the kernel set. */
  lemma GrantedLockKeepsWaiterBits(m: Mutex, tid: Tid, kernel: LockReply)
    requires TryLock(m, tid).ret == EBUSY && kernel.Acquired?
    ensures LockMutex(m, tid, kernel).state.futex & FUTEX_TID_MASK == tid
    ensures WaiterBits(LockMutex(m, tid, kernel).state.futex) == WaiterBits(kernel.waiterBits)
  {
  }

  /** `pi_mutex_lock`: EINVAL on a null handle. */
  function Lock(h: Option<Mutex>, tid: Tid, kernel: LockReply): (r: Step<Option<Mutex>>)
    ensures h.None? ==> r == Step(EINVAL, None)
    ensures h.Some? ==> (r.state.Some? && r.ret == LockMutex(h.value, tid, kernel).ret
                         && r.state.value == LockMutex(h.value, tid, kernel).state)
  {
    match h
    case None => Step(EINVAL, None)
    case Some(m) =>
      var s := LockMutex(m, tid, kernel);
      Step(s.ret, Some(s.state))
  }

  /** `pi_mutex_unlock` on a valid mutex: EPERM unless the caller owns it; a
      word holding exactly the caller's id is cleared without the kernel;
      with waiter bits set the kernel's PI unlock decides. */
  function UnlockMutex(m: Mutex, tid: Tid, kernel: UnlockReply): (r: Step<Mutex>)
    ensures !OwnedBy(m, tid) ==> r == Step(EPERM, m)
    ensures m.futex == tid ==> r == Step(0, m.(futex := 0)) && !OwnedBy(r.state, tid)
    ensures OwnedBy(m, tid) && m.futex != tid ==>
              (kernel.HandedOff? ==> r == Step(0, m.(futex := kernel.word)))
              && (kernel.UnlockFailed? ==> r == Step(kernel.errno, m))
    ensures r.ret != 0 ==> r.state == m
    ensures r.state.flags == m.flags
  {
    if tid != Owner(m) then Step(EPERM, m)
    else if m.futex == tid then Step(0, m.(futex := 0))
    else
      match kernel
      case HandedOff(w) => Step(0, m.(futex := w))
      case UnlockFailed(e) => Step(e, m)
  }

  /** `pi_mutex_unlock`: EINVAL on a null handle. */
  function Unlock(h: Option<Mutex>, tid: Tid, kernel: UnlockReply): (r: Step<Option<Mutex>>)
    ensures h.None? ==> r == Step(EINVAL, None)
    ensures h.Some? ==> (r.state.Some? && r.ret == UnlockMutex(h.value, tid, kernel).ret
                         && r.state.value == UnlockMutex(h.value, tid, kernel).state)
  {
    match h
    case None => Step(EINVAL, None)
    case Some(m) =>
      var s := UnlockMutex(m, tid, kernel);
      Step(s.ret, Some(s.state))
  }

  /** The kernel honours its PI unlock contract when a hand-off never names the
      thread that is unlocking. */
  predicate HandsOffToOther(kernel: UnlockReply, tid: Tid)
  {
    kernel.HandedOff? ==> kernel.word & FUTEX_TID_MASK != tid
  }

  /** The kernel carries out a PI unlock it is asked for, handing the lock to
      another thread or to nobody. */
  predicate UnlockHonoured(kernel: UnlockReply, tid: Tid)
  {
    kernel.HandedOff? && HandsOffToOther(kernel, tid)
  }

  /** Whoever held the mutex before, an unlock the kernel honours never leaves
      the caller owning it: the owner releases it, anyone else gets EPERM. */
  lemma HonouredUnlockReleases(m: Mutex, tid: Tid, kernel: UnlockReply)
    ensures UnlockHonoured(kernel, tid) ==>
              !OwnedBy(UnlockMutex(m, tid, kernel).state, tid)
              && UnlockMutex(m, tid, kernel).ret == (if OwnedBy(m, tid) then 0 else EPERM)
  {
  }

  /** Why the fork handler clears the id cache: in a child forked while the
      parent held the mutex, a trylock with the id left over from the parent
      would report EDEADLOCK as if the child owned it; after `cleartid` the
      child looks up its own id and is told EBUSY. */
  lemma ForkedChildDoesNotOwn(m: Mutex, cache: Cache, parent: Tid, child: Tid)
    requires OwnedBy(m, parent) && parent != child
    requires cache == 0 || cache == parent  // the parent's own cache
    ensures TryLock(m, GetTid(GetTid(cache, parent).cache, child).tid) == Step(EDEADLOCK, m)
    ensures TryLock(m, GetTid(ClearTid(GetTid(cache, parent).cache), child).tid) == Step(EBUSY, m)
  {
  }

  /** Non-recursive: once a lock call has succeeded, a second trylock or lock by
      the same thread reports EDEADLOCK and changes nothing, whatever the
      kernel would answer. */
  lemma RelockReportsDeadlock(m: Mutex, tid: Tid, k1: LockReply, k2: LockReply)
    requires LockMutex(m, tid, k1).ret == 0
    ensures TryLock(LockMutex(m, tid, k1).state, tid) == Step(EDEADLOCK, LockMutex(m, tid, k1).state)
    ensures LockMutex(LockMutex(m, tid, k1).state, tid, k2) == Step(EDEADLOCK, LockMutex(m, tid, k1).state)
  {
  }

  /** A lock call the kernel grants always leaves the caller owning the mutex:
      either it already did, or the fast path or the kernel gives it. */
  lemma LockGrantedOwns(m: Mutex, tid: Tid, kernel: LockReply)
    requires kernel.Acquired?
    ensures OwnedBy(LockMutex(m, tid, kernel).state, tid)
  {
  }

  /** A successful unlock gives up ownership, provided a kernel hand-off goes
      to another thread. */
  lemma UnlockReleasesOwnership(m: Mutex, tid: Tid, kernel: UnlockReply)
    requires HandsOffToOther(kernel, tid)
    requires UnlockMutex(m, tid, kernel).ret == 0
    ensures OwnedBy(m, tid)
    ensures !OwnedBy(UnlockMutex(m, tid, kernel).state, tid)
  {
  }

  /** Fast-path round trip: trylock then unlock on a free mutex restores it
      exactly, and neither call consults the kernel. */
  lemma TryLockUnlockRoundTrip(m: Mutex, tid: Tid, kernel: UnlockReply)
    requires m.futex == 0
    ensures TryLock(m, tid).ret == 0
    ensures UnlockMutex(TryLock(m, tid).state, tid, kernel) == Step(0, m)
  {
  }

  /** Mutual exclusion of the word: while one thread owns the mutex, any other
      thread's trylock reports EBUSY and its unlock reports EPERM, both leaving
      the mutex as it was. */
  lemma OwnerExcludesOthers(m: Mutex, owner: Tid, other: Tid, ku: UnlockReply)
    requires OwnedBy(m, owner) && owner != other
    ensures TryLock(m, other) == Step(EBUSY, m)
    ensures UnlockMutex(m, other, ku) == Step(EPERM, m)
  {
  }

  /** Destroy followed by a plain init brings back the state of a freshly
      initialised, unlocked mutex. */
  lemma DestroyThenInit(m: Mutex)
    ensures Init(Destroy(m).state, 0, 0) == Step(0, StaticInit(0))
    ensures Owner(Init(Destroy(m).state, 0, 0).state) == 0
  {
  }

  /** Scenario: A locks, A's trylock deadlocks, B's trylock would block, A
      unlocks, then B's trylock succeeds. */
  lemma TwoThreadScenario(a: Tid, b: Tid, k: LockReply, ku: UnlockReply)
    requires a != b
    ensures var m0 := Init(Mutex(0, 0), 0, 0).state;
            var l := LockMutex(m0, a, k);
            && l.ret == 0
            && TryLock(l.state, a).ret == EDEADLOCK
            && TryLock(l.state, b).ret == EBUSY
            && UnlockMutex(l.state, a, ku) == Step(0, m0)
            && TryLock(m0, b) == Step(0, Mutex(b, 0))
  {
  }
}

=== FILE: thread_id.dfy ===
/** The per-thread cache of the kernel thread id (`tid_this_thread`) and the
    fork handler that clears it. The id lookup itself (`syscall(SYS_gettid)`)
    is a parameter: the id the kernel would report for the calling thread. */
module ThreadId {

  /** The owner bits of a PI futex word. */
  const FUTEX_TID_MASK: bv32 := 0x3fff_ffff

  /** A kernel thread id: never 0, and small enough to fit in the owner bits. */
  type Tid = t: bv32 | 0 < t <= 0x3fff_ffff witness 1

  /** The cached id of the calling thread; 0 means "not looked up yet". */
  type Cache = t: bv32 | t <= 0x3fff_ffff

  /** The result of `gettid`: the id returned and the cache afterwards. */
  datatype Lookup = Lookup(tid: Tid, cache: Cache)

  /** `gettid`: returns the cached id when there is one, and otherwise asks the
      kernel (`kernelTid`) and remembers the answer. */
  function GetTid(cache: Cache, kernelTid: Tid): (r: Lookup)
    ensures cache != 0 ==> r.tid == cache
    ensures cache == 0 ==> r.tid == kernelTid
    ensures r.cache == r.tid
  {
    if cache != 0 then Lookup(cache, cache) else Lookup(kernelTid, kernelTid)
  }

  /** `cleartid`, run in the child after `fork`: forget the cached id. */
  function ClearTid(cache: Cache): (r: Cache)
    ensures r == 0
  {
    0
  }

  /** Once an id is cached, every later lookup returns it without asking the
      kernel again, whatever the kernel would now say. */
  lemma CachedLookupIsStable(cache: Cache, k1: Tid, k2: Tid)
    ensures GetTid(GetTid(cache, k1).cache, k2) == GetTid(cache, k1)
    ensures GetTid(GetTid(cache, k1).cache, k2).tid == (if cache != 0 then cache else k1)
  {
  }

  /** After the fork handler clears the cache, the next lookup asks the kernel
      again, so the child learns its own id and not its parent's. */
  lemma ClearedCacheRequeries(cache: Cache, parent: Tid, child: Tid)
    ensures GetTid(ClearTid(GetTid(cache, parent).cache), child).tid == child
  {
  }
}
